=== FILE: README.md ===
# Telegram User Inviter — a verified model of its invitation core

`bot.py` walks through the configured Telegram accounts. For each account
the operator keeps, it gathers the account's supergroups. It then reads each
group's member list page by page and invites the eligible members of every
page into one target group. Three things stop an account's turn: the
account's invitation count passing the platform's limit, Ctrl+C, or running
out of groups. This project models that core in Dafny and proves what it
promises:

- `records.dfy` holds the records the platform hands back: participants,
  users, pages and dialogs.
- `member_filter.dfy` is the participant filter of one page (bot.py:287-306).
  Admins are skipped. Every other participant claims the first user record
  with its id. That record is removed from the page's user list, and its id
  is kept unless the user is a bot or a deleted account. The method
  `CollectInvitees` runs the source's loop over participants, and the method
  `Claim` its inner scan of the user list. It is proved equal to the
  function `Select`, and lemmas about `Select` prove eligibility, order,
  conservation of records and the bound by the number of non-admins.
- `dialog_filter.dfy` is the dialog filter (bot.py:242-249). It keeps the
  dialogs that are not users, are channels and are groups.
- `interrupt_handler.dfy` is the `GracefulInterruptHandler` context manager
  (bot.py:17-49). It is a class whose fields are the two flags, the saved
  disposition, and the process's current disposition for the signal.
- `transcript.dfy` is the record of the requests one account sends (page
  requests, invitations, disconnections), together with each answer. It also
  holds the running totals over that record: participants received, users
  reported invited, and empty pages.
- `inviter.dfy` is one account's turn (bot.py:239-318). The platform is an
  oracle: page and invitation answers are functions of what was sent before,
  and a set says at which looks at the interrupt flag Ctrl+C has arrived. The
  turn returns its transcript, and every page and invitation answer in it
  is the one the platform gave for that request. It is proved to page from
  the offset reached so far, to stop at the first empty page of a group, to
  invite exactly the filter's ids of every non-empty page, to send only
  disconnections once the count (the sum of the platform's invitation
  answers) passes 999, to enter a group only after every earlier group ended with an empty
  page, to look at the interrupt flag right before every participants
  request and every disconnection but the last (twice before a group's
  first request, and nowhere else), to disconnect before the end only once
  the count passes 999 or a look has found Ctrl+C, and to send only
  disconnections once a look has found Ctrl+C.
- `sessions.dfy` is the loop over accounts (bot.py:229-318). It carries the
  module-level offset from one turn into the next without ever resetting it,
  and each account's turn works through the supergroups among that
  account's own dialogs.

The offset is global in the source (bot.py:80, 307). It is therefore not
reset between groups or between accounts: a group's first request asks for
members from wherever the previous group's pages ended. The model keeps
this behaviour as written, and `Inviter.Paging` and
`Sessions.RunSessions` state it.

## Model

| member | source | states |
|---|---|---|
| MemberFilter.FirstMatch | bot.py:293-294 | A found index lies within the user list and holds a record with the participant's id. |
| MemberFilter.FirstMatchFirst | bot.py:293-294 | No record before the found one has the id, and nothing is found exactly when no record has it. |
| MemberFilter.Examine | bot.py:288-304 | Examining a participant chooses nothing, or exactly the participant's own id, and only when it has no admin rights. |
| MemberFilter.ExamineEffect | bot.py:288-306 | An admin or an unmatched participant leaves the user records unchanged; otherwise exactly the first matching record is removed (the records less that one, as a multiset), and its id is chosen exactly when the user is neither a bot nor deleted. |
| MemberFilter.ExamineConserves | bot.py:288-304 | One participant moves at most one invitable id from the unclaimed records to the chosen ids and creates none. |
| MemberFilter.SelectAppend | bot.py:287-306 | Filtering a page in two parts, the second against the records the first left, gives the whole page's ids in participant order. |
| MemberFilter.SelectConserves | bot.py:287-306 | Chosen ids plus the invitable ids still unclaimed equal the page's invitable ids as a multiset, so no record is claimed twice; the records left are a sub-multiset of the page's. |
| MemberFilter.SelectFromNonAdmins | bot.py:287-306 | The chosen ids are a sub-multiset of the non-admin participants' ids, so at most one per non-admin participant; at most that many records are removed. |
| MemberFilter.SelectedAreEligible | bot.py:288-303 | Every chosen id belongs to a participant without admin rights and to a user record of the page that is neither a bot nor deleted. |
| MemberFilter.AdminsIgnored | bot.py:288-290 | Dropping the admins before filtering changes neither the chosen ids nor the records left. |
| MemberFilter.NonAdmins | bot.py:288-290 | The kept participants have no admin rights and are no more than the page's. |
| MemberFilter.InvitableIdsMember | bot.py:298-303 | An invitable id comes from a record of the page that is neither a bot nor deleted. |
| MemberFilter.NonAdminIdsMember | bot.py:288-290 | A non-admin id comes from a participant without admin rights. |
| MemberFilter.Claim | bot.py:293-306 | For a participant without admin rights, the scan removes exactly the record `Examine` removes and appends exactly the id it chooses. |
| MemberFilter.CollectInvitees | bot.py:287-306 | The nested loops with in-place removal end with exactly the ids and the remaining user records of the filter `Select`. |
| DialogFilter.GroupIdsAppend | bot.py:242-249 | The selection of concatenated dialog lists is the concatenation of the selections, so ids keep dialog order. |
| DialogFilter.GroupIdsMembers | bot.py:242-249 | An id is selected if and only if some dialog with that id is not a user, is a channel and is a group. |
| DialogFilter.GroupIdsCount | bot.py:242-249 | Exactly one id is selected per such dialog. |
| DialogFilter.SelectGroups | bot.py:242-249 | The loop with its three early `continue`s returns exactly the selection `GroupIds`. |
| Interrupts.GracefulInterruptHandler.constructor | bot.py:19-20 | The handler records SIGINT and leaves the signal's disposition as it found it. |
| Interrupts.GracefulInterruptHandler.Enter | bot.py:22-35 | Both flags are cleared, the current disposition is saved, and the catcher is installed. |
| Interrupts.GracefulInterruptHandler.Release | bot.py:40-49 | The first call restores the saved disposition and answers true; later calls answer false and change nothing. |
| Interrupts.GracefulInterruptHandler.Exit | bot.py:37-38 | Leaving the block restores the saved disposition and keeps the interrupted flag. |
| Interrupts.GracefulInterruptHandler.Deliver | bot.py:29-31 | A signal is caught exactly while the catcher is installed; then the handler releases and raises the flag, otherwise nothing changes. |
| Transcript.TotalsAppend | bot.py:307-312 | One more request adds its page's length to the participants received, its answer's length to the invited count, and one empty page when it is one. |
| Transcript.TotalsMonotone | bot.py:307-312 | The totals over a prefix of the transcript never exceed those over the whole. |
| Inviter.AnsweredAt | bot.py:282-310 | Any recorded page is the platform's answer to its request, and any recorded invitation answer is the platform's answer to that invitation, given the calls before it. |
| Inviter.AnsweredAppend | bot.py:282-310 | Appending a call whose page or answer is the platform's keeps every recorded answer the platform's. |
| Inviter.SilentInvitesCountNobody | bot.py:310-312 | On a platform that answers every invitation with no users, the invitation count stays 0. |
| Inviter.EmptyPlatformInvitesNobody | bot.py:285-286 | On a platform whose member lists are all empty, no invitation is sent and nothing is received or invited. |
| Inviter.PagingAt | bot.py:282-284 | Any participants request of the transcript asks for 100 entries from the starting offset plus the participants received before it. |
| Inviter.CapAt | bot.py:262-279 | Any request or invitation of the transcript was made while the count was at most 999. |
| Inviter.PageFollowedByInvite | bot.py:285-310 | Any non-empty page is followed at once by an invitation into the target channel of exactly the ids the filter keeps from it. |
| Inviter.InvitePrecededByPage | bot.py:285-310 | Any invitation comes straight after a non-empty page. |
| Inviter.OwnerAt | bot.py:252-286 | A request or invitation belongs to the group numbered by the empty pages before it, and a request asks for that group's members. |
| Inviter.OwnersMonotone | bot.py:252-286 | Calls visit the groups in list order: a later call never belongs to an earlier group. |
| Inviter.EmptyPageEndsGroup | bot.py:285-286 | No request or invitation after an empty page belongs to that page's group. |
| Inviter.PagingAppend | bot.py:282-284 | A request made at the offset reached so far, with the page size, keeps every request at the starting offset plus the participants received before it. |
| Inviter.CapAppend | bot.py:262-279 | A request made while the count is at most 999 keeps the rule that nothing but a disconnection follows a count above 999. |
| Inviter.OrderAppend | bot.py:252-286 | A call for the current group, made when that many groups have ended with an empty page, keeps groups visited in order, with no call for a group after its empty page and none before the earlier groups' empty pages. |
| Inviter.ReadsAppend | bot.py:253-284 | A request or a disconnection made right after a look at the flag (a request that opens a group right after two looks, those of lines 253 and 271), or an invitation made with no look at its position, keeps the looks in step with the transcript: every request and disconnection has a look at its position, no invitation has one, and two looks share a position only where a group opens. |
| Inviter.EmptyPageNumbered | bot.py:285-286 | Below the number of empty pages so far, every count is the number of empty pages before one of them. |
| Inviter.NoGroupSkipped | bot.py:252-286 | A request or invitation for a group comes after an empty page of every group before it. |
| Inviter.LookedAt | bot.py:253-284 | At any position, a request or a disconnection has a look at the flag made there, an invitation has none, and a request that opens a group has two looks there, one right after the other. |
| Inviter.LookedGrow | bot.py:253-271 | A look made at or past the end of the transcript keeps what is known of the looks at every call already in it. |
| Inviter.CapStopAt | bot.py:262-266 | Any disconnection of a transcript whose disconnections are all justified by the cap was made with more than 999 users invited before it. |
| Inviter.CapStopsAppend | bot.py:262-266 | Appending any call but a disconnection, or a disconnection made with more than 999 users invited, keeps every disconnection justified by the cap. |
| Inviter.RequestsFollowQuietLooks | bot.py:271-284 | Every participants request comes straight after a look at the flag that found no Ctrl+C, whether the turn was interrupted later or not. |
| Inviter.InvitedAppendPage | bot.py:285-310 | A non-empty page followed by the invitation of exactly its filtered ids keeps every invitation paired with its page. |
| Inviter.InvitedAppendOther | bot.py:285-286 | An empty page or a disconnection keeps every invitation paired with its page. |
| Inviter.AppendKeeps | bot.py:252-312 | One call for the current group, at the offset reached, under the cap (unless it is a disconnection), keeps paging, the cap rule and group order. |
| Inviter.ReadsLook | bot.py:253-271 | A look recorded at the current length of the transcript, where every earlier look came before it or as the second look where a group opens, keeps the looks from going back, at most two per position, and doubled only where a group opens. |
| Inviter.StepCheck | bot.py:253-271 | A look at the interrupt flag, where no look was made yet or as the second look where a group opens (line 271 after line 253), keeps the loop invariant, in which looks never go back and no position has more than two. |
| Inviter.PageLook | bot.py:271-276 | The look of line 271, on the first round right after the look of line 253 and later right after an invitation, keeps the loop invariant; a request that opens the group then has both looks right before it; a look that finds no Ctrl+C extends the run of looks that found none. |
| Inviter.StepPage | bot.py:282-312 | A non-empty page and its invitation, each the platform's answer, the page right after a look (two where the group opens), keep the loop invariant and advance the totals by the page's and the answer's lengths. |
| Inviter.StepLast | bot.py:285-286 | An empty page the platform gave, or a disconnection, right after a look at the flag, ends the group, keeps the loop invariant and leaves the totals unchanged. |
| Inviter.FetchPage | bot.py:282-312 | A request at the current offset for the current group records the platform's page; an empty page changes nothing else; otherwise the filter's ids are invited, the platform's answer is recorded, the offset grows by the page's length and the count by the answer's. No disconnection is added, and every look was made before the new calls. |
| Inviter.PageRound | bot.py:270-312 | One pass of the paging loop either goes on, with no Ctrl+C, the count at most 999, a non-empty page and its invitation appended, a strictly larger offset and the loop's invariant kept, or stops: at the first empty page under the cap, once the count passes 999, or at a look that found Ctrl+C, answered with exactly one disconnection. |
| Inviter.PageGroup | bot.py:270-315 | Every request of the group comes right after a look at the flag, the first one after the looks of lines 253 and 271, and no other look is made. Every page and answer recorded is the platform's. Paging ends at the first empty page with the count at most 999, or once the count passes 999, or at a look that found Ctrl+C followed by one disconnection; no other disconnection is made. The offset and count equal the totals received and invited. |
| Inviter.StoppedAppend | bot.py:257-258 | Once Ctrl+C was seen, more disconnections and more looks at the flag keep "only disconnections since then" and the cap rule for disconnections before it. |
| Inviter.GroupLook | bot.py:253-258 | The look of line 253 keeps the loop invariant; a turn that has seen no Ctrl+C yet still knows every look found none and every disconnection came with the cap passed; a turn that sees Ctrl+C now or saw it earlier has only disconnected since the look that found it. |
| Inviter.StopStep | bot.py:253-266 | Disconnecting right after a look, on a caught Ctrl+C or on a count above 999, keeps the turn's invariant for the next group. |
| Inviter.PagedStep | bot.py:270-315 | A finished paging loop leaves the turn's invariant for the next group, counting one more empty page exactly when the group was exhausted; a caught Ctrl+C was first seen at the last look. |
| Inviter.VisitGroup | bot.py:252-315 | One pass of the group loop keeps the turn's invariant: every recorded page and answer is the platform's, the count is the sum of the answers, looks are made only before requests and disconnections, and without Ctrl+C every disconnection came with the count above 999. It asks to stop only after Ctrl+C or a passed cap. |
| Inviter.StartTurn | bot.py:239-240 | A turn starts with no requests, a count of 0 and no Ctrl+C seen. |
| Inviter.VisitGroups | bot.py:251-315 | The group loop ends after the last group, after Ctrl+C, or once the count (the sum of the platform's invitation answers) passes 999, and keeps the turn's invariant, which ties every recorded page and answer to the platform and every look and disconnection to its place. |
| Inviter.EndTurn | bot.py:316-318 | The final disconnection leaves a transcript with the turn's promised properties, that disconnection being the only one made without a look right before it. |
| Inviter.RunClient | bot.py:239-318 | The turn requests pages only of the account's supergroups, in order, entering a group only after every earlier one ended with an empty page. Every request pages on from the offset reached so far. Every page and invitation answer recorded is the platform's answer to that request, and the count is the sum of the answers' lengths. Every non-empty page's filtered ids are invited, and only disconnections are sent once the count passes 999. The flag is looked at right before every request and every disconnection but the last, twice before a group's first request, never before an invitation, and never twice elsewhere. Without Ctrl+C every disconnection but the last came with the count above 999; after a caught Ctrl+C only disconnections follow. The signal's disposition is restored, and the turn ends with a disconnection. Without Ctrl+C and within the cap, every group is paged through to its empty page. |
| Sessions.FetchedAllMonotone | bot.py:307 | A later account's turn starts from an offset no smaller than an earlier one's. |
| Sessions.OffsetsNonDecreasing | bot.py:282-307 | Within a turn, a later request never asks for a smaller offset than an earlier one. |
| Sessions.RunSession | bot.py:229-318 | A skipped account sends nothing; a used account's turn keeps every promise of `RunClient` over the supergroups among its own dialogs, against its own platform, and moves the offset on by the participants its pages held. |
| Sessions.RunSessions | bot.py:229-318 | The offset starts at 0 and each turn starts where the previous turns' pages left it. A skipped account sends nothing. Each used account's turn pages only its own dialogs' supergroups, in order and to their empty pages unless stopped, records its own platform's pages and answers, keeps its paging, invitation and cap rules and its looks at the flag, and ends in a disconnection; the signal's disposition is the same at the end as at the start. |

## Left out

- A platform request that fails is not modelled. The source catches no error around `GetParticipantsRequest` or `InviteToChannelRequest` (bot.py:282, 310). A failure (flood wait, privacy restriction, missing rights) leaves the handler's block, restoring the disposition (bot.py:37-38), and ends the whole run, so later groups and accounts get nothing. The model's oracles always answer.
- The Telethon calls (`client.start`, `get_dialogs`, `GetParticipantsRequest`, `InviteToChannelRequest`) are network library code. They are modelled only as oracle functions in `Inviter.Platform` and as input dialog lists; `disconnect` appears only as a transcript entry.
- The search string `''` and `hash=0` of the participants request are constants passed straight to the library and are not recorded.
- Interactive prompts and `get_env` (bot.py:52-61), including the pause, are left out. The "use this client?" answer is the `useIt` field of a session.
- The configuration wizard, the JSON file `clients.json` and the target group id's origin (bot.py:139-211) are left out. The target id is a parameter.
- Proxy setup is configuration passed to the library and is left out.
- Coloured output, the banner and every `cprint` are presentation only and are left out.
- Real signal registration (`signal.signal`, `signal.getsignal`) is the field `installed` of the handler. Delivery is the method `Deliver`, driven by the oracle's set of signal times. A Ctrl+C arriving after the handler has released goes to the earlier disposition; what that disposition does (by default, raising `KeyboardInterrupt` and ending the program) is not modelled. The same holds for a Ctrl+C outside the handler's block: during the "use this client?" prompt (bot.py:232), `client.start` (bot.py:237) or `get_dialogs` (bot.py:242) it ends the whole run. The oracle's signal times count only looks at the flag inside the block.
- Termination of the source's `while True` paging loop depends on the server returning an empty page eventually. The model assumes a bound on offsets beyond which every page is empty (`Inviter.Finite`). A member list that never ends is not modelled.
- `hasattr(participant, 'admin_rights')` is the boolean `hasAdminRights`.
- Python's `list.remove` on the page's user list is modelled as a new sequence without the claimed record. `list.remove` removes the first element that is the claimed record or compares equal to it; no earlier record has the same id, so it is the claimed record that goes. The aliasing of that list with the page object is not modelled.
- The module-level variables are not modelled as globals. `offset` is threaded through the turns as an input and an output. `count_of_invited_user_by_this_client` is the per-turn `count`.
- The list reset at bot.py:260 is dead code: line 281 overwrites it before anything reads it. The reset at bot.py:281 is live. It starts every page's id list empty, so each invitation carries only that page's ids. Its counterpart is the fresh `ids := []` of `MemberFilter.CollectInvitees`, which runs once per page.

=== FILE: dialog_filter.dfy ===
/**
 Choosing the conversations whose members are invited (bot.py:242-249): a
 dialog is kept when it is not a private chat with a user, is a channel, and
 is a group (a supergroup).
 */
module DialogFilter {
  import opened Records

  predicate IsMemberSource(d: Dialog) {
    !d.isUser && d.isChannel && d.isGroup
  }

  /** The ids of the member-source dialogs, in dialog order. */
  function GroupIds(dialogs: seq<Dialog>): (r: seq<ChannelId>)
    ensures |r| <= |dialogs|
  {
    if dialogs == [] then []
    else
      var last := dialogs[|dialogs| - 1];
      GroupIds(dialogs[..|dialogs| - 1]) + (if IsMemberSource(last) then [last.id] else [])
  }

  /** Order: the selection of a concatenation is the concatenation of the
      selections, so kept ids appear in the order of their dialogs. */
  lemma {:induction false} GroupIdsAppend(a: seq<Dialog>, b: seq<Dialog>)
    ensures GroupIds(a + b) == GroupIds(a) + GroupIds(b)
    decreases |b|
  {
    if b == [] {
      assert a + b == a;
    } else {
      var init := b[..|b| - 1];
      GroupIdsAppend(a, init);
      assert (a + b)[..|a + b| - 1] == a + init;
      assert (a + b)[|a + b| - 1] == b[|b| - 1];
    }
  }

  /** Exactly the member-source dialogs contribute an id: an id is kept if
      and only if some dialog with that id is a member source. */
  lemma {:induction false} GroupIdsMembers(dialogs: seq<Dialog>, x: ChannelId)
    ensures x in GroupIds(dialogs) <==>
            exists i :: 0 <= i < |dialogs| && IsMemberSource(dialogs[i]) && dialogs[i].id == x
    decreases |dialogs|
  {
    if dialogs != [] {
      var init, last := dialogs[..|dialogs| - 1], dialogs[|dialogs| - 1];
      GroupIdsMembers(init, x);
      if x in GroupIds(dialogs) {
        if x in GroupIds(init) {
          var i :| 0 <= i < |init| && IsMemberSource(init[i]) && init[i].id == x;
          assert dialogs[i] == init[i];
        }
      } else {
        forall i | 0 <= i < |dialogs| && IsMemberSource(dialogs[i])
          ensures dialogs[i].id != x
        {
          if i < |init| {
            assert dialogs[i] == init[i];
          }
        }
      }
    }
  }

  /** One id per member-source dialog, none for any other dialog. */
  lemma {:induction false} GroupIdsCount(dialogs: seq<Dialog>)
    ensures |GroupIds(dialogs)| == |set i | 0 <= i < |dialogs| && IsMemberSource(dialogs[i])|
    decreases |dialogs|
  {
    if dialogs != [] {
      var n := |dialogs| - 1;
      var init := dialogs[..n];
      GroupIdsCount(init);
      var before := set i | 0 <= i < n && IsMemberSource(init[i]);
      var after := set i | 0 <= i < |dialogs| && IsMemberSource(dialogs[i]);
      assert before == set i | 0 <= i < n && IsMemberSource(dialogs[i]);
      if IsMemberSource(dialogs[n]) {
        assert after == before + {n};
      } else {
        assert after == before;
      }
    }
  }

  /** The loop of bot.py:242-249 over the account's dialogs. */
  method SelectGroups(dialogs: seq<Dialog>) returns (ids: seq<ChannelId>)
    ensures ids == GroupIds(dialogs)
  {
    ids := [];
    for i := 0 to |dialogs|
      invariant ids == GroupIds(dialogs[..i])
    {
      var dialog := dialogs[i];
      assert dialogs[..i + 1][..i] == dialogs[..i];
      if dialog.isUser {
        continue;
      }
      if !dialog.isChannel {
        continue;
      }
      if !dialog.isGroup {
        continue;
      }
      ids := ids + [dialog.id];
    }
    assert dialogs[..|dialogs|] == dialogs;
  }
}

=== FILE: interrupt_handler.dfy ===
/**
 The context manager that turns Ctrl+C into a flag (bot.py:17-49). The
 process's signal table entry for the handled signal is modelled as the
 field `installed`; `Catcher` stands for the closure that `__enter__`
 installs, any other disposition for whatever was there before.
 */
module Interrupts {

  const SIGINT: int := 2

  datatype Disposition = Catcher | Other(code: int)

  class GracefulInterruptHandler {
    const sig: int
    var installed: Disposition
    var originalHandler: Disposition
    var interrupted: bool
    var released: bool
    /** Whether `__enter__` has run: before it, the flags do not exist. */
    ghost var entered: bool

    /** While entered and not released, the catcher is installed; once
        released, the disposition found on entry is back; an interrupt
        always comes with a release. */
    ghost predicate Valid()
      reads this
    {
      && entered
      && installed == (if released then originalHandler else Catcher)
      && (interrupted ==> released)
    }

    /** `__init__`: records the signal; `current` is what the signal table
        holds for it at that time. */
    constructor (current: Disposition)
      ensures sig == SIGINT && installed == current && !entered
    {
      sig := SIGINT;
      installed := current;
      originalHandler := current;
      interrupted, released := false, false;
      entered := false;
    }

    /** `__enter__`: clears both flags, saves the current disposition and
        installs the catcher. */
    method Enter()
      modifies this
      ensures Valid()
      ensures !interrupted && !released
      ensures originalHandler == old(installed) && installed == Catcher
    {
      interrupted := false;
      released := false;
      originalHandler := installed;
      installed := Catcher;
      entered := true;
    }

    /** `release`: acts once, restoring the saved disposition and answering
        true; every later call answers false and changes nothing. */
    method Release() returns (acted: bool)
      requires Valid()
      modifies this
      ensures Valid()
      ensures acted == !old(released)
      ensures released && installed == originalHandler
      ensures originalHandler == old(originalHandler) && interrupted == old(interrupted)
      ensures !acted ==> installed == old(installed)
    {
      if released {
        return false;
      }
      installed := originalHandler;
      released := true;
      return true;
    }

    /** `__exit__`: releases, whatever the outcome of the block. */
    method Exit()
      requires Valid()
      modifies this
      ensures Valid()
      ensures released && installed == originalHandler
      ensures originalHandler == old(originalHandler) && interrupted == old(interrupted)
    {
      var _ := Release();
    }

    /** Delivery of the signal. While the catcher is installed it runs the
        closure of bot.py:29-31: release, then raise the flag; the answer is
        true. Otherwise the earlier disposition handles the signal, outside
        this model, and the answer is false. */
    method Deliver() returns (caught: bool)
      requires Valid()
      modifies this
      ensures Valid()
      ensures caught == (old(installed) == Catcher)
      ensures caught ==> interrupted && released && installed == originalHandler
      ensures !caught ==> interrupted == old(interrupted) && released == old(released) && installed == old(installed)
      ensures originalHandler == old(originalHandler)
    {
      caught := installed == Catcher;
      if caught {
        var _ := Release();
        interrupted := true;
      }
    }
  }
}

=== FILE: inviter.dfy ===
/**
 The invitation loop of bot.py:229-318. For each account that the operator
 keeps, the account's supergroups are selected, and each one's member list
 is read page by page from the module-level `offset`; every page's eligible
 members are invited into the target group, until a page comes back empty,
 the account's invitation count passes the platform's limit, or Ctrl+C is
 caught.

 The platform is an oracle: `getParticipants` and `inviteToChannel` answer
 a request given everything this account sent before it, and `k` is in
 `sigint` when Ctrl+C arrives just before the k-th look at the interrupt
 flag (counting from 0).
 */
module Inviter {
  import opened Records
  import opened Transcript
  import MemberFilter
  import DialogFilter
  import opened Interrupts

  /** TELEGRAM_LIMITATION_TO_INVITE_USER_BY_CLIENT (bot.py:77). */
  const InviteCap: nat := 999
  /** Page size of a participants request (bot.py:81). */
  const Limit: nat := 100
  /** Value of the module-level offset when the program starts (bot.py:80). */
  const InitialOffset: nat := 0

  datatype Platform = Platform(
    getParticipants: (seq<Call>, ChannelId, nat, nat) -> Page,
    inviteToChannel: (seq<Call>, ChannelId, seq<UserId>) -> seq<User>,
    sigint: set<nat>)

  /** Member lists are finite: from offset `bound` on, every page is empty.
      Without this the source's paging loop need not end either. */
  ghost predicate Finite(platform: Platform, bound: nat) {
    forall history, channel, offset ::
      offset >= bound ==> platform.getParticipants(history, channel, offset, Limit).participants == []
  }

  /** Every page and every invitation answer in the transcript is the one
      the platform gave for that request, after the calls before it.
      `AnsweredAt` reads it at any position. */
  ghost predicate Answered(platform: Platform, calls: seq<Call>)
    decreases |calls|
  {
    calls == [] ||
    var n := |calls| - 1;
    && Answered(platform, calls[..n])
    && (calls[n].GetParticipants? ==>
          calls[n].page == platform.getParticipants(calls[..n], calls[n].channel, calls[n].offset, calls[n].limit))
    && (calls[n].InviteToChannel? ==>
          calls[n].invited == platform.inviteToChannel(calls[..n], calls[n].channel, calls[n].ids))
  }

  lemma {:induction false} AnsweredAt(platform: Platform, calls: seq<Call>, i: nat)
    requires Answered(platform, calls) && i < |calls|
    ensures calls[i].GetParticipants? ==>
      calls[i].page == platform.getParticipants(calls[..i], calls[i].channel, calls[i].offset, calls[i].limit)
    ensures calls[i].InviteToChannel? ==>
      calls[i].invited == platform.inviteToChannel(calls[..i], calls[i].channel, calls[i].ids)
    decreases |calls|
  {
    var n := |calls| - 1;
    if i < n {
      AnsweredAt(platform, calls[..n], i);
      assert calls[..n][..i] == calls[..i];
    }
  }

  lemma AnsweredAppend(platform: Platform, calls: seq<Call>, c: Call)
    requires Answered(platform, calls)
    requires c.GetParticipants? ==> c.page == platform.getParticipants(calls, c.channel, c.offset, c.limit)
    requires c.InviteToChannel? ==> c.invited == platform.inviteToChannel(calls, c.channel, c.ids)
    ensures Answered(platform, calls + [c])
  {
    assert (calls + [c])[..|calls|] == calls;
  }

  /** On a platform that answers every invitation with an empty list of
      users, the invitation count stays 0. */
  lemma {:induction false} SilentInvitesCountNobody(platform: Platform, calls: seq<Call>)
    requires Answered(platform, calls)
    requires forall history, channel, ids :: platform.inviteToChannel(history, channel, ids) == []
    ensures Invited(calls) == 0
    decreases |calls|
  {
    if calls != [] {
      var n := |calls| - 1;
      SilentInvitesCountNobody(platform, calls[..n]);
      assert calls[..n] + [calls[n]] == calls;
      TotalsAppend(calls[..n], calls[n]);
    }
  }

  /** On a platform whose member lists are all empty, every request of the
      transcript got an empty page, so nothing was received or invited. */
  lemma {:induction false} EmptyPlatformInvitesNobody(platform: Platform, calls: seq<Call>, target: ChannelId)
    requires Answered(platform, calls) && PagesInvited(calls, target)
    requires forall history, channel, offset, limit ::
      platform.getParticipants(history, channel, offset, limit).participants == []
    ensures Fetched(calls) == 0 && Invited(calls) == 0
    ensures forall i :: 0 <= i < |calls| ==> !calls[i].InviteToChannel?
    decreases |calls|
  {
    if calls != [] {
      var n := |calls| - 1;
      if calls[n].InviteToChannel? {
        assert false;
      }
      EmptyPlatformInvitesNobody(platform, calls[..n], target);
      assert calls[..n] + [calls[n]] == calls;
      TotalsAppend(calls[..n], calls[n]);
      forall i | 0 <= i < |calls|
        ensures !calls[i].InviteToChannel?
      {
        if i < n {
          assert calls[i] == calls[..n][i];
        }
      }
    }
  }

  /** Every participants request asks for `Limit` entries from the offset
      reached so far: the starting offset plus every page received before.
      Stated call by call from the end; `PagingAt` reads it at any position. */
  ghost predicate Paging(calls: seq<Call>, base: nat)
    decreases |calls|
  {
    calls == [] ||
    var n := |calls| - 1;
    && Paging(calls[..n], base)
    && (calls[n].GetParticipants? ==> calls[n].offset == base + Fetched(calls[..n]) && calls[n].limit == Limit)
  }

  lemma {:induction false} PagingAt(calls: seq<Call>, base: nat, i: nat)
    requires Paging(calls, base) && i < |calls| && calls[i].GetParticipants?
    ensures calls[i].offset == base + Fetched(calls[..i]) && calls[i].limit == Limit
    decreases |calls|
  {
    var n := |calls| - 1;
    if i < n {
      PagingAt(calls[..n], base, i);
      assert calls[..n][..i] == calls[..i];
    }
  }

  /** No page is requested and no invitation sent once more than
      `InviteCap` users were reported invited; `CapAt` reads it at any
      position. */
  ghost predicate CapHonoured(calls: seq<Call>)
    decreases |calls|
  {
    calls == [] ||
    var n := |calls| - 1;
    && CapHonoured(calls[..n])
    && (!calls[n].Disconnect? ==> Invited(calls[..n]) <= InviteCap)
  }

  lemma {:induction false} CapAt(calls: seq<Call>, i: nat)
    requires CapHonoured(calls) && i < |calls| && !calls[i].Disconnect?
    ensures Invited(calls[..i]) <= InviteCap
    decreases |calls|
  {
    var n := |calls| - 1;
    if i < n {
      CapAt(calls[..n], i);
      assert calls[..n][..i] == calls[..i];
    }
  }

  /** The transcript is a run of blocks: a non-empty page followed at once
      by an invitation into `target` of exactly the members the filter keeps
      from it, or a single call that is neither a non-empty page nor an
      invitation. `PageFollowedByInvite` and `InvitePrecededByPage` read it
      at any position. */
  ghost predicate PagesInvited(calls: seq<Call>, target: ChannelId)
    decreases |calls|
  {
    calls == [] ||
    var n := |calls| - 1;
    if calls[n].InviteToChannel? then
      && n > 0 && calls[n - 1].GetParticipants? && !IsEmptyPage(calls[n - 1])
      && calls[n].channel == target
      && calls[n].ids == MemberFilter.Select(calls[n - 1].page.participants, calls[n - 1].page.users).ids
      && PagesInvited(calls[..n - 1], target)
    else
      && !(calls[n].GetParticipants? && !IsEmptyPage(calls[n]))
      && PagesInvited(calls[..n], target)
  }

  /** Every non-empty page is followed at once by the invitation of the
      members the filter keeps from it. */
  lemma {:induction false} PageFollowedByInvite(calls: seq<Call>, target: ChannelId, i: nat)
    requires PagesInvited(calls, target)
    requires i < |calls| && calls[i].GetParticipants? && !IsEmptyPage(calls[i])
    ensures i + 1 < |calls| && calls[i + 1].InviteToChannel? && calls[i + 1].channel == target
    ensures calls[i + 1].ids == MemberFilter.Select(calls[i].page.participants, calls[i].page.users).ids
    decreases |calls|
  {
    var n := |calls| - 1;
    if calls[n].InviteToChannel? {
      if i < n - 1 {
        PageFollowedByInvite(calls[..n - 1], target, i);
      }
    } else if i < n {
      PageFollowedByInvite(calls[..n], target, i);
    }
  }

  /** Every invitation comes straight after a non-empty page. */
  lemma {:induction false} InvitePrecededByPage(calls: seq<Call>, target: ChannelId, i: nat)
    requires PagesInvited(calls, target)
    requires i < |calls| && calls[i].InviteToChannel?
    ensures 0 < i && calls[i - 1].GetParticipants? && !IsEmptyPage(calls[i - 1])
    decreases |calls|
  {
    var n := |calls| - 1;
    if calls[n].InviteToChannel? {
      if i < n - 1 {
        InvitePrecededByPage(calls[..n - 1], target, i);
      }
    } else if i < n {
      InvitePrecededByPage(calls[..n], target, i);
    }
  }

  /** `owner[i]` is the position in `groups` of the group call i was made
      for. Owners never go back. A request or invitation belongs to the
      group counted by the empty pages before it, so a group is entered only
      once every group before it ended with an empty page, and the first
      empty page of a group ends it. A request asks for its own group's
      members. `OwnerAt`, `OwnersMonotone`, `EmptyPageEndsGroup` and
      `NoGroupSkipped` read it at any positions. */
  ghost predicate GroupOrder(calls: seq<Call>, owner: seq<nat>, groups: seq<ChannelId>)
    decreases |calls|
  {
    && |owner| == |calls|
    && (calls == [] ||
        var n := |calls| - 1;
        && GroupOrder(calls[..n], owner[..n], groups)
        && (n > 0 ==> owner[n - 1] <= owner[n])
        && (!calls[n].Disconnect? ==> owner[n] < |groups| && owner[n] == EmptyPages(calls[..n]))
        && (calls[n].GetParticipants? ==> calls[n].channel == groups[owner[n]]))
  }

  lemma {:induction false} OwnerAt(calls: seq<Call>, owner: seq<nat>, groups: seq<ChannelId>, j: nat)
    requires GroupOrder(calls, owner, groups) && j < |calls| && !calls[j].Disconnect?
    ensures owner[j] < |groups| && owner[j] == EmptyPages(calls[..j])
    ensures calls[j].GetParticipants? ==> calls[j].channel == groups[owner[j]]
    decreases |calls|
  {
    var n := |calls| - 1;
    if j < n {
      OwnerAt(calls[..n], owner[..n], groups, j);
      assert calls[..n][..j] == calls[..j];
    }
  }

  /** Groups are visited in list order. */
  lemma {:induction false} OwnersMonotone(calls: seq<Call>, owner: seq<nat>, groups: seq<ChannelId>, i: nat, j: nat)
    requires GroupOrder(calls, owner, groups) && i <= j < |calls|
    ensures owner[i] <= owner[j]
    decreases |calls|
  {
    var n := |calls| - 1;
    if j < n {
      OwnersMonotone(calls[..n], owner[..n], groups, i, j);
    } else if i < n {
      OwnersMonotone(calls[..n], owner[..n], groups, i, n - 1);
    }
  }

  /** The first empty page of a group ends it: no later request or
      invitation belongs to it. */
  lemma EmptyPageEndsGroup(calls: seq<Call>, owner: seq<nat>, groups: seq<ChannelId>, i: nat, j: nat)
    requires GroupOrder(calls, owner, groups) && i < j < |calls|
    requires IsEmptyPage(calls[i]) && !calls[j].Disconnect?
    ensures owner[i] < owner[j]
  {
    OwnerAt(calls, owner, groups, i);
    OwnerAt(calls, owner, groups, j);
    TotalsMonotone(calls[..j], i + 1);
    assert calls[..j][..i + 1] == calls[..i + 1];
    assert calls[..i + 1][..i] == calls[..i];
  }

  /** Below the number of empty pages among the first `m` calls, every
      count `n` is reached by an empty page: the one with exactly `n` empty
      pages before it. */
  lemma {:induction false} EmptyPageNumbered(calls: seq<Call>, m: nat, n: nat)
    requires m <= |calls| && n < EmptyPages(calls[..m])
    ensures exists e :: 0 <= e < m && IsEmptyPage(calls[e]) && EmptyPages(calls[..e]) == n
    decreases m
  {
    assert m > 0;
    assert calls[..m][..m - 1] == calls[..m - 1];
    if n < EmptyPages(calls[..m - 1]) {
      EmptyPageNumbered(calls, m - 1, n);
    } else {
      assert IsEmptyPage(calls[m - 1]) && EmptyPages(calls[..m - 1]) == n;
    }
  }

  /** No group is skipped: a request or invitation for a group comes after
      an empty page of every group before it. */
  lemma NoGroupSkipped(calls: seq<Call>, owner: seq<nat>, groups: seq<ChannelId>, j: nat, g: nat)
    requires GroupOrder(calls, owner, groups)
    requires j < |calls| && !calls[j].Disconnect? && g < owner[j]
    ensures exists e :: 0 <= e < j && IsEmptyPage(calls[e]) && owner[e] == g
  {
    OwnerAt(calls, owner, groups, j);
    EmptyPageNumbered(calls, j, g);
    var e :| 0 <= e < j && IsEmptyPage(calls[e]) && EmptyPages(calls[..e]) == g;
    OwnerAt(calls, owner, groups, e);
  }

  /** No call so far belongs to a group after position `g`. */
  ghost predicate OwnedUpTo(calls: seq<Call>, owner: seq<nat>, g: nat)
    requires |owner| == |calls|
  {
    calls != [] ==> owner[|calls| - 1] <= g
  }

  /** The first `n` looks at the interrupt flag found no Ctrl+C. */
  ghost predicate Quiet(platform: Platform, n: nat) {
    forall k :: 0 <= k < n ==> k !in platform.sigint
  }

  /** Every look at the flag so far was made before position `p`. */
  ghost predicate LooksBefore(readAt: seq<nat>, p: nat) {
    forall k :: 0 <= k < |readAt| ==> readAt[k] < p
  }

  /** A participants request or a disconnection at position `p` opens a
      group: nothing was sent before it, or the call before it was an
      empty page. */
  ghost predicate GroupStart(calls: seq<Call>, p: nat) {
    p == 0 || (p <= |calls| && IsEmptyPage(calls[p - 1]))
  }

  /** Two looks at the flag, one right after the other, were made at
      position `p`. */
  ghost predicate LookedTwice(readAt: seq<nat>, p: nat) {
    exists k :: 0 < k < |readAt| && readAt[k - 1] == p && readAt[k] == p
  }

  /** `readAt[k]` is the number of calls made when the flag was read the
      k-th time. Reads never go back in the transcript, and two reads share
      a position only when they come one after the other and open a group
      (the looks of bot.py:253 and bot.py:271). Walking the transcript
      (`Looked`), the flag was read just before every participants request
      and every disconnection, with no call between, never just before an
      invitation, and twice before a request that opens a group. */
  ghost predicate ReadsOrdered(readAt: seq<nat>, calls: seq<Call>) {
    && (forall k :: 0 <= k < |readAt| ==> readAt[k] <= |calls|)
    && (forall k, l :: 0 <= k < l < |readAt| ==> readAt[k] <= readAt[l] && (k + 1 < l ==> readAt[k] < readAt[l]))
    && (forall p {:trigger LookedTwice(readAt, p)} :: LookedTwice(readAt, p) ==> GroupStart(calls, p))
    && Looked(readAt, calls)
  }

  ghost predicate Looked(readAt: seq<nat>, calls: seq<Call>)
    decreases |calls|
  {
    calls == [] ||
    var n := |calls| - 1;
    && Looked(readAt, calls[..n])
    && (calls[n].GetParticipants? || calls[n].Disconnect? ==> n in readAt)
    && (calls[n].InviteToChannel? ==> n !in readAt)
    && (calls[n].GetParticipants? && GroupStart(calls, n) ==> LookedTwice(readAt, n))
  }

  /** `Looked` read at any position of the transcript. */
  lemma {:induction false} LookedAt(readAt: seq<nat>, calls: seq<Call>, i: nat)
    requires Looked(readAt, calls) && i < |calls|
    ensures calls[i].GetParticipants? || calls[i].Disconnect? ==> i in readAt
    ensures calls[i].InviteToChannel? ==> i !in readAt
    ensures calls[i].GetParticipants? && GroupStart(calls, i) ==> LookedTwice(readAt, i)
    decreases |calls|
  {
    var n := |calls| - 1;
    if i < n {
      LookedAt(readAt, calls[..n], i);
      if 0 < i {
        assert calls[..n][i - 1] == calls[i - 1];
      }
    }
  }

  /** A look made at or past the end of the transcript changes nothing
      `Looked` says about the calls already in it. */
  lemma {:induction false} LookedGrow(readAt: seq<nat>, calls: seq<Call>, x: nat)
    requires Looked(readAt, calls) && |calls| <= x
    ensures Looked(readAt + [x], calls)
    decreases |calls|
  {
    if calls != [] {
      var n := |calls| - 1;
      var r := readAt + [x];
      LookedGrow(readAt, calls[..n], x);
      if n in readAt {
        var k :| 0 <= k < |readAt| && readAt[k] == n;
        assert r[k] == n;
      }
      if LookedTwice(readAt, n) {
        var k :| 0 < k < |readAt| && readAt[k - 1] == n && readAt[k] == n;
        assert r[k - 1] == n && r[k] == n;
      }
    }
  }

  /** Every disconnection in `calls` was made with the count already past
      `InviteCap` (bot.py:262-264). `CapStopAt` reads it at any position. */
  ghost predicate CapStops(calls: seq<Call>)
    decreases |calls|
  {
    calls == [] ||
    var n := |calls| - 1;
    CapStops(calls[..n]) && (calls[n].Disconnect? ==> Invited(calls[..n]) > InviteCap)
  }

  lemma {:induction false} CapStopAt(calls: seq<Call>, j: nat)
    requires CapStops(calls) && j < |calls| && calls[j].Disconnect?
    ensures Invited(calls[..j]) > InviteCap
    decreases |calls|
  {
    var n := |calls| - 1;
    if j < n {
      CapStopAt(calls[..n], j);
      assert calls[..n][..j] == calls[..j];
    }
  }

  lemma CapStopsAppend(calls: seq<Call>, c: Call)
    requires CapStops(calls)
    requires c.Disconnect? ==> Invited(calls) > InviteCap
    ensures CapStops(calls + [c])
  {
    assert (calls + [c])[..|calls|] == calls;
  }

  lemma PagingAppend(calls: seq<Call>, base: nat, c: Call)
    requires Paging(calls, base)
    requires c.GetParticipants? ==> c.offset == base + Fetched(calls) && c.limit == Limit
    ensures Paging(calls + [c], base)
  {
    assert (calls + [c])[..|calls|] == calls;
  }

  lemma CapAppend(calls: seq<Call>, c: Call)
    requires CapHonoured(calls)
    requires !c.Disconnect? ==> Invited(calls) <= InviteCap
    ensures CapHonoured(calls + [c])
  {
    assert (calls + [c])[..|calls|] == calls;
  }

  lemma OrderAppend(calls: seq<Call>, owner: seq<nat>, groups: seq<ChannelId>, c: Call, g: nat)
    requires GroupOrder(calls, owner, groups) && OwnedUpTo(calls, owner, g)
    requires !c.Disconnect? ==> g < |groups| && EmptyPages(calls) == g
    requires c.GetParticipants? ==> g < |groups| && c.channel == groups[g]
    ensures GroupOrder(calls + [c], owner + [g], groups)
    ensures OwnedUpTo(calls + [c], owner + [g], g)
  {
    assert (calls + [c])[..|calls|] == calls && (owner + [g])[..|calls|] == owner;
  }

  /** A call made right after a look at the flag (two looks, when it is a
      request that opens a group), or an invitation made without one, keeps
      the looks in step with the transcript. */
  lemma ReadsAppend(readAt: seq<nat>, calls: seq<Call>, c: Call)
    requires ReadsOrdered(readAt, calls)
    requires c.GetParticipants? || c.Disconnect? ==> |readAt| > 0 && readAt[|readAt| - 1] == |calls|
    requires c.GetParticipants? && GroupStart(calls, |calls|) ==> |readAt| > 1 && readAt[|readAt| - 2] == |calls|
    requires c.InviteToChannel? ==> |calls| !in readAt
    ensures ReadsOrdered(readAt, calls + [c])
  {
    var s := calls + [c];
    assert s[..|calls|] == calls;
    forall p: nat | p <= |calls|
      ensures GroupStart(s, p) == GroupStart(calls, p)
    {
      if 0 < p {
        assert s[p - 1] == calls[p - 1];
      }
    }
    forall p: nat | LookedTwice(readAt, p)
      ensures GroupStart(s, p)
    {
      var k :| 0 < k < |readAt| && readAt[k - 1] == p && readAt[k] == p;
      assert p <= |calls|;
    }
    if c.GetParticipants? && GroupStart(s, |calls|) {
      assert readAt[|readAt| - 2] == |calls| && readAt[|readAt| - 1] == |calls|;
    }
  }

  lemma InvitedAppendPage(calls: seq<Call>, target: ChannelId, fetch: Call, invite: Call)
    requires PagesInvited(calls, target)
    requires fetch.GetParticipants? && !IsEmptyPage(fetch)
    requires invite.InviteToChannel? && invite.channel == target
    requires invite.ids == MemberFilter.Select(fetch.page.participants, fetch.page.users).ids
    ensures PagesInvited(calls + [fetch] + [invite], target)
  {
    var s := calls + [fetch] + [invite];
    assert s[|calls|] == fetch && s[|calls| + 1] == invite && s[..|calls|] == calls;
  }

  lemma InvitedAppendOther(calls: seq<Call>, target: ChannelId, c: Call)
    requires PagesInvited(calls, target)
    requires IsEmptyPage(c) || c.Disconnect?
    ensures PagesInvited(calls + [c], target)
  {
    assert (calls + [c])[..|calls|] == calls;
  }

  /** The invariant of the invitation loop at every look at the flag. */
  ghost predicate Progress(platform: Platform, calls: seq<Call>, owner: seq<nat>, groups: seq<ChannelId>, g: nat,
                           base: nat, target: ChannelId, readAt: seq<nat>)
  {
    && Answered(platform, calls)
    && Paging(calls, base)
    && CapHonoured(calls)
    && PagesInvited(calls, target)
    && GroupOrder(calls, owner, groups)
    && OwnedUpTo(calls, owner, g)
    && ReadsOrdered(readAt, calls)
  }

  /** A look at the flag, recorded at the current length of the transcript,
      keeps the looks in step with it, when no look was made there yet, or
      only the one that opens a group. */
  lemma ReadsLook(readAt: seq<nat>, calls: seq<Call>)
    requires ReadsOrdered(readAt, calls)
    requires || LooksBefore(readAt, |calls|)
             || (&& GroupStart(calls, |calls|) && |readAt| > 0 && readAt[|readAt| - 1] == |calls|
                 && (|readAt| < 2 || readAt[|readAt| - 2] < |calls|))
    ensures ReadsOrdered(readAt + [|calls|], calls)
  {
    var r := readAt + [|calls|];
    LookedGrow(readAt, calls, |calls|);
    if !LooksBefore(readAt, |calls|) && |readAt| >= 2 {
      forall k | 0 <= k < |readAt| - 1
        ensures readAt[k] < |calls|
      {
        assert readAt[k] <= readAt[|readAt| - 2];
      }
    }
    forall p: nat | LookedTwice(r, p)
      ensures GroupStart(calls, p)
    {
      var k :| 0 < k < |r| && r[k - 1] == p && r[k] == p;
      if k < |readAt| {
        assert readAt[k - 1] == p && readAt[k] == p;
        assert LookedTwice(readAt, p);
      } else {
        assert readAt[|readAt| - 1] == |calls|;
      }
    }
  }

  /** A look at the flag, under the same conditions, keeps the loop
      invariant. */
  lemma StepCheck(platform: Platform, calls: seq<Call>, owner: seq<nat>, groups: seq<ChannelId>, g: nat, base: nat,
                  target: ChannelId, readAt: seq<nat>)
    requires Progress(platform, calls, owner, groups, g, base, target, readAt)
    requires || LooksBefore(readAt, |calls|)
             || (&& GroupStart(calls, |calls|) && |readAt| > 0 && readAt[|readAt| - 1] == |calls|
                 && (|readAt| < 2 || readAt[|readAt| - 2] < |calls|))
    ensures Progress(platform, calls, owner, groups, g, base, target, readAt + [|calls|])
  {
    ReadsLook(readAt, calls);
  }

  /** The look at the flag of bot.py:271: on the first round it follows
      the look of bot.py:253 at the same position, and on later rounds it
      comes after an invitation. It keeps the loop invariant, and a request
      that opens the group then has both looks just before it. */
  lemma PageLook(platform: Platform, calls: seq<Call>, owner: seq<nat>, groups: seq<ChannelId>, g: nat, base: nat,
                 target: ChannelId, readAt: seq<nat>, first: bool, interrupted: bool)
    requires Progress(platform, calls, owner, groups, g, base, target, readAt)
    requires Quiet(platform, |readAt|) && (interrupted <==> |readAt| in platform.sigint)
    requires first ==> && GroupStart(calls, |calls|) && |readAt| > 0 && readAt[|readAt| - 1] == |calls|
                       && (|readAt| < 2 || readAt[|readAt| - 2] < |calls|)
    requires !first ==> |calls| > 0 && calls[|calls| - 1].InviteToChannel? && LooksBefore(readAt, |calls|)
    ensures Progress(platform, calls, owner, groups, g, base, target, readAt + [|calls|])
    ensures GroupStart(calls, |calls|) ==> |readAt| > 0 && readAt[|readAt| - 1] == |calls|
    ensures !interrupted ==> Quiet(platform, |readAt| + 1)
  {
    StepCheck(platform, calls, owner, groups, g, base, target, readAt);
  }

  /** A non-empty page of `groups[g]` and the invitation it led to keep the
      loop invariant and advance the totals. */
  lemma StepPage(platform: Platform, calls: seq<Call>, owner: seq<nat>, groups: seq<ChannelId>, g: nat, base: nat,
                 target: ChannelId, readAt: seq<nat>, fetch: Call, invite: Call)
    requires Progress(platform, calls, owner, groups, g, base, target, readAt) && g < |groups|
    requires Invited(calls) <= InviteCap && EmptyPages(calls) == g
    requires |readAt| > 0 && readAt[|readAt| - 1] == |calls|
    requires GroupStart(calls, |calls|) ==> |readAt| > 1 && readAt[|readAt| - 2] == |calls|
    requires fetch.GetParticipants? && !IsEmptyPage(fetch) && fetch.channel == groups[g]
    requires fetch.offset == base + Fetched(calls) && fetch.limit == Limit
    requires invite.InviteToChannel? && invite.channel == target
    requires invite.ids == MemberFilter.Select(fetch.page.participants, fetch.page.users).ids
    requires fetch.page == platform.getParticipants(calls, fetch.channel, fetch.offset, fetch.limit)
    requires invite.invited == platform.inviteToChannel(calls + [fetch], invite.channel, invite.ids)
    ensures Progress(platform, calls + [fetch] + [invite], owner + [g] + [g], groups, g, base, target, readAt)
    ensures Fetched(calls + [fetch] + [invite]) == Fetched(calls) + |fetch.page.participants|
    ensures Invited(calls + [fetch] + [invite]) == Invited(calls) + |invite.invited|
    ensures EmptyPages(calls + [fetch] + [invite]) == EmptyPages(calls)
  {
    var s1, o1 := calls + [fetch], owner + [g];
    TotalsAppend(calls, fetch);
    TotalsAppend(s1, invite);
    AppendKeeps(calls, owner, groups, g, base, fetch);
    AppendKeeps(s1, o1, groups, g, base, invite);
    ReadsAppend(readAt, calls, fetch);
    ReadsAppend(readAt, s1, invite);
    InvitedAppendPage(calls, target, fetch, invite);
    AnsweredAppend(platform, calls, fetch);
    AnsweredAppend(platform, s1, invite);
  }

  /** An empty page or a disconnection, appended for group `g` right after
      a look at the flag, keeps the loop invariant for the next group. */
  lemma StepLast(platform: Platform, calls: seq<Call>, owner: seq<nat>, groups: seq<ChannelId>, g: nat, base: nat,
                 target: ChannelId, readAt: seq<nat>, c: Call)
    requires Progress(platform, calls, owner, groups, g, base, target, readAt)
    requires IsEmptyPage(c) || c.Disconnect?
    requires |readAt| > 0 && readAt[|readAt| - 1] == |calls|
    requires IsEmptyPage(c) && GroupStart(calls, |calls|) ==> |readAt| > 1 && readAt[|readAt| - 2] == |calls|
    requires IsEmptyPage(c) ==> g < |groups| && c.channel == groups[g] && c.offset == base + Fetched(calls) && c.limit == Limit
    requires IsEmptyPage(c) ==> Invited(calls) <= InviteCap && EmptyPages(calls) == g
    requires IsEmptyPage(c) ==> c.page == platform.getParticipants(calls, c.channel, c.offset, c.limit)
    ensures Progress(platform, calls + [c], owner + [g], groups, g + 1, base, target, readAt)
    ensures Fetched(calls + [c]) == Fetched(calls) && Invited(calls + [c]) == Invited(calls)
    ensures EmptyPages(calls + [c]) == EmptyPages(calls) + (if IsEmptyPage(c) then 1 else 0)
  {
    AppendKeeps(calls, owner, groups, g, base, c);
    ReadsAppend(readAt, calls, c);
    InvitedAppendOther(calls, target, c);
    AnsweredAppend(platform, calls, c);
    TotalsAppend(calls, c);
  }

  /** One call for `groups[g]`, made under the conditions each part of the
      loop invariant asks of it, keeps paging, the cap rule and group order. */
  lemma AppendKeeps(calls: seq<Call>, owner: seq<nat>, groups: seq<ChannelId>, g: nat, base: nat, c: Call)
    requires Paging(calls, base) && CapHonoured(calls) && GroupOrder(calls, owner, groups)
    requires OwnedUpTo(calls, owner, g)
    requires c.GetParticipants? ==> c.offset == base + Fetched(calls) && c.limit == Limit
    requires c.GetParticipants? ==> g < |groups| && c.channel == groups[g]
    requires !c.Disconnect? ==> g < |groups| && EmptyPages(calls) == g && Invited(calls) <= InviteCap
    ensures Paging(calls + [c], base) && CapHonoured(calls + [c]) && GroupOrder(calls + [c], owner + [g], groups)
    ensures OwnedUpTo(calls + [c], owner + [g], g)
  {
    OrderAppend(calls, owner, groups, c, g);
    PagingAppend(calls, base, c);
    CapAppend(calls, c);
  }

  /** One round of bot.py:282-312 for `groups[g]`: request the page at the
      current offset; when it is empty, nothing else happens; otherwise the
      filter's ids are invited into `target`, the offset advances by the
      page's length and the count by the number of users the answer lists. */
  method FetchPage(platform: Platform, groups: seq<ChannelId>, g: nat, target: ChannelId,
                   ghost base: nat, offset0: nat, count0: nat, calls0: seq<Call>,
                   ghost owner0: seq<nat>, ghost readAt: seq<nat>)
    returns (offset: nat, count: nat, calls: seq<Call>, ghost owner: seq<nat>, empty: bool)
    requires g < |groups|
    requires Progress(platform, calls0, owner0, groups, g, base, target, readAt)
    requires offset0 == base + Fetched(calls0) && count0 == Invited(calls0) && count0 <= InviteCap
    requires EmptyPages(calls0) == g && CapStops(calls0)
    requires |readAt| > 0 && readAt[|readAt| - 1] == |calls0|
    requires GroupStart(calls0, |calls0|) ==> |readAt| > 1 && readAt[|readAt| - 2] == |calls0|
    ensures offset == base + Fetched(calls) && count == Invited(calls) && CapStops(calls)
    ensures calls0 < calls && EmptyPages(calls) == EmptyPages(calls0) + (if empty then 1 else 0)
    ensures calls[|calls0|] == GetParticipants(groups[g], offset0, Limit, platform.getParticipants(calls0, groups[g], offset0, Limit))
    ensures empty <==> IsEmptyPage(calls[|calls0|])
    ensures empty ==> |calls| == |calls0| + 1 && offset == offset0 && count == count0
    ensures empty ==> Progress(platform, calls, owner, groups, g + 1, base, target, readAt)
    ensures !empty ==> |calls| == |calls0| + 2 && offset > offset0 && count >= count0
    ensures !empty ==> calls[|calls| - 1].InviteToChannel?
    ensures LooksBefore(readAt, |calls|)
    ensures !empty ==> Progress(platform, calls, owner, groups, g, base, target, readAt)
  {
    var page := platform.getParticipants(calls0, groups[g], offset0, Limit);
    var fetch := GetParticipants(groups[g], offset0, Limit, page);
    if page.participants == [] {
      StepLast(platform, calls0, owner0, groups, g, base, target, readAt, fetch);
      CapStopsAppend(calls0, fetch);
      offset, count, calls, owner, empty := offset0, count0, calls0 + [fetch], owner0 + [g], true;
      return;
    }
    var ids, _ := MemberFilter.CollectInvitees(page);
    offset := offset0 + |page.participants|;
    var invited := platform.inviteToChannel(calls0 + [fetch], target, ids);
    var invite := InviteToChannel(target, ids, invited);
    StepPage(platform, calls0, owner0, groups, g, base, target, readAt, fetch, invite);
    CapStopsAppend(calls0, fetch);
    CapStopsAppend(calls0 + [fetch], invite);
    calls, owner := calls0 + [fetch] + [invite], owner0 + [g] + [g];
    count := count0 + |invited|;
    empty := false;
  }

  /** The invariant of the paging loop of bot.py:270-315 for `groups[g]`,
      at each look of bot.py:271: the loop invariant, with the count under
      the cap, every group before `g` ended with an empty page, only
      disconnections made with the cap passed, and no Ctrl+C seen. */
  ghost predicate PagingOn(platform: Platform, groups: seq<ChannelId>, g: nat, base: nat, target: ChannelId,
                           offset: nat, count: nat, calls: seq<Call>, owner: seq<nat>, readAt: seq<nat>)
  {
    && Progress(platform, calls, owner, groups, g, base, target, readAt)
    && offset == base + Fetched(calls) && count == Invited(calls) && count <= InviteCap
    && EmptyPages(calls) == g && CapStops(calls) && Quiet(platform, |readAt|)
  }

  /** How the paging loop for `groups[g]` ends: the group is done, every
      look was made before the end of the transcript, and either the group
      ran out of members (`exhausted`, the last call an empty page), or the
      count passed the cap, or Ctrl+C was caught at the last look and
      answered with a disconnection. */
  ghost predicate PagingEnded(platform: Platform, groups: seq<ChannelId>, g: nat, base: nat, target: ChannelId,
                              offset: nat, count: nat, calls: seq<Call>, owner: seq<nat>, readAt: seq<nat>,
                              interrupted: bool, released: bool, exhausted: bool)
  {
    && Progress(platform, calls, owner, groups, g + 1, base, target, readAt)
    && offset == base + Fetched(calls) && count == Invited(calls)
    && LooksBefore(readAt, |calls|)
    && EmptyPages(calls) == g + (if exhausted then 1 else 0)
    && (exhausted ==> !interrupted && count <= InviteCap && |calls| > 0 && IsEmptyPage(calls[|calls| - 1]))
    && (!exhausted ==> interrupted || count > InviteCap)
    && (!interrupted ==> Quiet(platform, |readAt|) && !released && CapStops(calls))
    && (interrupted ==>
          && |readAt| > 0 && |calls| > 0
          && Quiet(platform, |readAt| - 1) && |readAt| - 1 in platform.sigint
          && readAt[|readAt| - 1] == |calls| - 1 && calls[|calls| - 1] == Disconnect
          && CapStops(calls[..|calls| - 1]))
  }

  /** One pass of the paging loop of bot.py:270-312 for `groups[g]`: look
      at the flag (bot.py:271) and disconnect on Ctrl+C; then, under the
      cap, fetch the page at the current offset and invite its eligible
      members. `stop` tells that the loop ends here. `first` tells the
      first pass, which follows the look of bot.py:253 at the same
      position; later passes follow an invitation. */
  method PageRound(h: GracefulInterruptHandler, platform: Platform, groups: seq<ChannelId>, g: nat,
                   target: ChannelId, ghost base: nat, ghost bound: nat,
                   offset0: nat, count0: nat, calls0: seq<Call>, ghost owner0: seq<nat>,
                   checks0: nat, ghost readAt0: seq<nat>, ghost first: bool)
    returns (offset: nat, count: nat, calls: seq<Call>, ghost owner: seq<nat>,
             checks: nat, ghost readAt: seq<nat>, stop: bool, exhausted: bool)
    requires h.Valid() && !h.interrupted && !h.released
    requires Finite(platform, bound) && g < |groups| && checks0 == |readAt0|
    requires PagingOn(platform, groups, g, base, target, offset0, count0, calls0, owner0, readAt0)
    requires first ==> && GroupStart(calls0, |calls0|) && |readAt0| > 0 && readAt0[|readAt0| - 1] == |calls0|
                       && (|readAt0| < 2 || readAt0[|readAt0| - 2] < |calls0|)
    requires !first ==> |calls0| > 0 && calls0[|calls0| - 1].InviteToChannel? && LooksBefore(readAt0, |calls0|)
    modifies h
    ensures h.Valid() && h.originalHandler == old(h.originalHandler) && checks == |readAt|
    ensures readAt == readAt0 + [|calls0|] && calls0 <= calls
    ensures !stop ==>
      && !h.interrupted && !h.released
      && PagingOn(platform, groups, g, base, target, offset, count, calls, owner, readAt)
      && calls0 < calls && calls[|calls| - 1].InviteToChannel? && LooksBefore(readAt, |calls|)
      && offset0 < offset && offset0 < bound
    ensures stop ==>
      PagingEnded(platform, groups, g, base, target, offset, count, calls, owner, readAt, h.interrupted, h.released, exhausted)
  {
    offset, count, calls, owner, checks, readAt := offset0, count0, calls0, owner0, checks0, readAt0;
    if checks in platform.sigint {
      var _ := h.Deliver();
    }
    assert h.interrupted <==> checks in platform.sigint;
    PageLook(platform, calls, owner, groups, g, base, target, readAt, first, h.interrupted);
    checks, readAt := checks + 1, readAt + [|calls|];
    if h.interrupted {
      StepLast(platform, calls, owner, groups, g, base, target, readAt, Disconnect);
      assert (calls + [Disconnect])[..|calls|] == calls;
      calls, owner := calls + [Disconnect], owner + [g];
      stop, exhausted := true, false;
      return;
    }
    if count > InviteCap {
      stop, exhausted := true, false;
      return;
    }
    var empty;
    offset, count, calls, owner, empty := FetchPage(platform, groups, g, target, base, offset, count, calls, owner, readAt);
    stop := empty || count > InviteCap;
    exhausted := empty;
  }

  /** The paging loop of bot.py:270-315 for one group, `groups[g]`. It
      starts from the offset reached so far, right after the look of
      bot.py:253, and stops at the first empty page, once the count passes
      `InviteCap`, or when Ctrl+C is caught, disconnecting in that last
      case. `exhausted` tells the first case. */
  method PageGroup(h: GracefulInterruptHandler, platform: Platform, groups: seq<ChannelId>, g: nat,
                   target: ChannelId, ghost base: nat, ghost bound: nat,
                   offset0: nat, count0: nat, calls0: seq<Call>, ghost owner0: seq<nat>,
                   checks0: nat, ghost readAt0: seq<nat>)
    returns (offset: nat, count: nat, calls: seq<Call>, ghost owner: seq<nat>,
             checks: nat, ghost readAt: seq<nat>, exhausted: bool)
    requires h.Valid() && !h.interrupted && !h.released
    requires Finite(platform, bound) && g < |groups| && checks0 == |readAt0|
    requires PagingOn(platform, groups, g, base, target, offset0, count0, calls0, owner0, readAt0)
    requires GroupStart(calls0, |calls0|) && |readAt0| > 0 && readAt0[|readAt0| - 1] == |calls0|
    requires |readAt0| < 2 || readAt0[|readAt0| - 2] < |calls0|
    modifies h
    ensures h.Valid() && h.originalHandler == old(h.originalHandler) && checks == |readAt|
    ensures calls0 <= calls && readAt0 < readAt && readAt[|readAt0|] == |calls0|
    ensures PagingEnded(platform, groups, g, base, target, offset, count, calls, owner, readAt, h.interrupted, h.released, exhausted)
  {
    offset, count, calls, owner, checks, readAt := offset0, count0, calls0, owner0, checks0, readAt0;
    ghost var first := true;
    while true
      invariant h.Valid() && !h.interrupted && !h.released && h.originalHandler == old(h.originalHandler)
      invariant checks == |readAt|
      invariant PagingOn(platform, groups, g, base, target, offset, count, calls, owner, readAt)
      invariant first ==> calls == calls0 && readAt == readAt0
      invariant !first ==> calls0 < calls && readAt0 < readAt && readAt[|readAt0|] == |calls0|
      invariant !first ==> calls[|calls| - 1].InviteToChannel? && LooksBefore(readAt, |calls|)
      decreases if offset <= bound then bound - offset else 0
    {
      ghost var readAtBefore := readAt;
      var stop;
      offset, count, calls, owner, checks, readAt, stop, exhausted :=
        PageRound(h, platform, groups, g, target, base, bound, offset, count, calls, owner, checks, readAt, first);
      assert readAt[|readAt0|] == |calls0| by {
        if !first {
          assert readAt[|readAt0|] == readAtBefore[|readAt0|];
        }
      }
      if stop {
        break;
      }
      first := false;
    }
  }

  /** Ctrl+C was first seen at look `signalAt`; before the transcript
      length at that look every disconnection came with the cap passed, and
      from there on only disconnections were made (possibly none yet). */
  ghost predicate StoppedBySignal(platform: Platform, calls: seq<Call>, readAt: seq<nat>, signalAt: nat) {
    && signalAt < |readAt| && signalAt in platform.sigint && Quiet(platform, signalAt)
    && readAt[signalAt] <= |calls|
    && CapStops(calls[..readAt[signalAt]])
    && forall j :: readAt[signalAt] <= j < |calls| ==> calls[j] == Disconnect
  }

  /** The invariant of an account's turn before group `g`, given the
      handler's two flags: no look was made yet at the current position; a
      turn with no Ctrl+C seen disconnected only with the cap passed, and
      one still under the cap has ended every group before `g` with an
      empty page. */
  ghost predicate Turn(platform: Platform, groups: seq<ChannelId>, g: nat, base: nat, target: ChannelId,
                       offset: nat, count: nat, calls: seq<Call>, owner: seq<nat>, readAt: seq<nat>,
                       signalAt: nat, interrupted: bool, released: bool)
  {
    && Progress(platform, calls, owner, groups, g, base, target, readAt)
    && offset == base + Fetched(calls) && count == Invited(calls)
    && LooksBefore(readAt, |calls|)
    && (!interrupted ==> !released && Quiet(platform, |readAt|) && CapStops(calls))
    && (!interrupted && count <= InviteCap ==> EmptyPages(calls) == g && GroupStart(calls, |calls|))
    && (interrupted ==> StoppedBySignal(platform, calls, readAt, signalAt))
  }

  lemma StoppedAppend(platform: Platform, calls: seq<Call>, readAt: seq<nat>, signalAt: nat)
    requires StoppedBySignal(platform, calls, readAt, signalAt)
    ensures StoppedBySignal(platform, calls + [Disconnect], readAt, signalAt)
    ensures StoppedBySignal(platform, calls, readAt + [|calls|], signalAt)
  {
    assert (calls + [Disconnect])[..readAt[signalAt]] == calls[..readAt[signalAt]];
  }

  /** The look at the flag of bot.py:253, before group `g`, keeps the loop
      invariant; after it, a turn that saw no Ctrl+C yet knows the same as
      before, and one that saw it now or earlier only disconnected since. */
  lemma GroupLook(platform: Platform, groups: seq<ChannelId>, g: nat, base: nat, target: ChannelId,
                  offset: nat, count: nat, calls: seq<Call>, owner: seq<nat>, readAt: seq<nat>,
                  signalAt: nat, wasInterrupted: bool, interrupted: bool, released: bool)
    requires Turn(platform, groups, g, base, target, offset, count, calls, owner, readAt, signalAt, wasInterrupted, released)
    requires wasInterrupted ==> interrupted
    requires !wasInterrupted ==> (interrupted <==> |readAt| in platform.sigint)
    ensures Progress(platform, calls, owner, groups, g, base, target, readAt + [|calls|])
    ensures LooksBefore(readAt, |calls|)
    ensures !interrupted ==> !released && Quiet(platform, |readAt| + 1) && CapStops(calls)
    ensures !interrupted && count <= InviteCap ==> EmptyPages(calls) == g && GroupStart(calls, |calls|)
    ensures interrupted ==>
      StoppedBySignal(platform, calls, readAt + [|calls|], if wasInterrupted then signalAt else |readAt|)
  {
    StepCheck(platform, calls, owner, groups, g, base, target, readAt);
    if wasInterrupted {
      StoppedAppend(platform, calls, readAt, signalAt);
    } else {
      assert calls[..|calls|] == calls;
    }
  }

  /** Disconnecting, right after a look at the flag, on a caught Ctrl+C or
      on a passed cap ends group `g` (and the turn) and keeps the turn's
      invariant. */
  lemma StopStep(platform: Platform, groups: seq<ChannelId>, g: nat, base: nat, target: ChannelId,
                 offset: nat, count: nat, calls: seq<Call>, owner: seq<nat>, readAt: seq<nat>,
                 signalAt: nat, interrupted: bool, released: bool)
    requires Progress(platform, calls, owner, groups, g, base, target, readAt)
    requires offset == base + Fetched(calls) && count == Invited(calls)
    requires |readAt| > 0 && readAt[|readAt| - 1] == |calls|
    requires !interrupted ==> count > InviteCap && !released && Quiet(platform, |readAt|) && CapStops(calls)
    requires interrupted ==> StoppedBySignal(platform, calls, readAt, signalAt)
    ensures Turn(platform, groups, g + 1, base, target, offset, count, calls + [Disconnect], owner + [g], readAt, signalAt, interrupted, released)
  {
    StepLast(platform, calls, owner, groups, g, base, target, readAt, Disconnect);
    if interrupted {
      StoppedAppend(platform, calls, readAt, signalAt);
    } else {
      CapStopsAppend(calls, Disconnect);
    }
  }

  /** Paging through group `g` to its end, or to a stop, keeps the turn's
      invariant. */
  lemma PagedStep(platform: Platform, groups: seq<ChannelId>, g: nat, base: nat, target: ChannelId,
                  offset: nat, count: nat, calls: seq<Call>, owner: seq<nat>, readAt: seq<nat>,
                  interrupted: bool, released: bool, exhausted: bool)
    requires PagingEnded(platform, groups, g, base, target, offset, count, calls, owner, readAt, interrupted, released, exhausted)
    ensures Turn(platform, groups, g + 1, base, target, offset, count, calls, owner, readAt,
                 if interrupted then |readAt| - 1 else 0, interrupted, released)
  {
  }

  /** One pass of the loop over groups, bot.py:252-315, for `groups[g]`:
      look at the flag, then at the cap (either one disconnects and asks to
      stop), then page through the group. */
  method VisitGroup(h: GracefulInterruptHandler, platform: Platform, groups: seq<ChannelId>, g: nat,
                    target: ChannelId, ghost base: nat, ghost bound: nat,
                    offset0: nat, count0: nat, calls0: seq<Call>, ghost owner0: seq<nat>,
                    checks0: nat, ghost readAt0: seq<nat>, ghost signalAt0: nat)
    returns (offset: nat, count: nat, calls: seq<Call>, ghost owner: seq<nat>,
             checks: nat, ghost readAt: seq<nat>, ghost signalAt: nat, stop: bool)
    requires h.Valid() && Finite(platform, bound) && g < |groups| && checks0 == |readAt0|
    requires Turn(platform, groups, g, base, target, offset0, count0, calls0, owner0, readAt0, signalAt0, h.interrupted, h.released)
    modifies h
    ensures h.Valid() && h.originalHandler == old(h.originalHandler) && checks == |readAt|
    ensures Turn(platform, groups, g + 1, base, target, offset, count, calls, owner, readAt, signalAt, h.interrupted, h.released)
    ensures stop ==> h.interrupted || count > InviteCap
  {
    offset, count, calls, owner, checks, readAt, signalAt := offset0, count0, calls0, owner0, checks0, readAt0, signalAt0;
    ghost var wasInterrupted, wasReleased := h.interrupted, h.released;
    if checks in platform.sigint {
      var _ := h.Deliver();
    }
    assert !wasInterrupted ==> (h.interrupted <==> checks in platform.sigint);
    GroupLook(platform, groups, g, base, target, offset, count, calls, owner, readAt, signalAt,
              wasInterrupted, h.interrupted, wasReleased);
    if h.interrupted && !wasInterrupted {
      signalAt := |readAt|;
    }
    checks, readAt := checks + 1, readAt + [|calls|];
    if h.interrupted {
      StopStep(platform, groups, g, base, target, offset, count, calls, owner, readAt, signalAt, true, h.released);
      calls, owner, stop := calls + [Disconnect], owner + [g], true;
      return;
    }
    if count > InviteCap {
      StopStep(platform, groups, g, base, target, offset, count, calls, owner, readAt, signalAt, false, h.released);
      calls, owner, stop := calls + [Disconnect], owner + [g], true;
      return;
    }
    var exhausted;
    offset, count, calls, owner, checks, readAt, exhausted :=
      PageGroup(h, platform, groups, g, target, base, bound, offset, count, calls, owner, checks, readAt);
    PagedStep(platform, groups, g, base, target, offset, count, calls, owner, readAt,
              h.interrupted, h.released, exhausted);
    signalAt := if h.interrupted then |readAt| - 1 else 0;
    stop := false;
  }

  /** What an account's turn leaves behind, from the module-level offset
      `base`: a transcript that ends in a disconnection, whose pages and
      answers are the platform's, whose requests page on from `base` group
      by group in the order of `groups`, whose invitations follow their
      pages and stop at the cap, and whose invitation answers add up to
      `count`. The flag was looked at just before every request and every
      disconnection but the last, as `ReadsOrdered` counts the looks. With
      no Ctrl+C seen, every look found none, every disconnection but the
      last came with the cap passed, and a turn still under the cap has
      ended every group with an empty page; otherwise Ctrl+C was first seen
      at look `signalAt` and only disconnections followed. */
  ghost predicate Completed(platform: Platform, groups: seq<ChannelId>, base: nat, target: ChannelId,
                            calls: seq<Call>, count: nat, owner: seq<nat>, readAt: seq<nat>,
                            signalAt: nat, interrupted: bool)
  {
    && |calls| > 0 && calls[|calls| - 1] == Disconnect
    && Answered(platform, calls) && Paging(calls, base)
    && count == Invited(calls) && CapHonoured(calls) && PagesInvited(calls, target)
    && GroupOrder(calls, owner, groups)
    && ReadsOrdered(readAt, calls[..|calls| - 1])
    && LooksBefore(readAt, |calls| - 1)
    && (!interrupted ==> Quiet(platform, |readAt|) && CapStops(calls[..|calls| - 1]))
    && (interrupted ==> StoppedBySignal(platform, calls, readAt, signalAt))
    && (!interrupted && count <= InviteCap ==> EmptyPages(calls) == |groups|)
  }

  /** In a finished turn every participants request comes straight after
      a look at the flag that found no Ctrl+C, whether the turn was
      interrupted later or not. */
  lemma RequestsFollowQuietLooks(platform: Platform, groups: seq<ChannelId>, base: nat, target: ChannelId,
                                 calls: seq<Call>, count: nat, owner: seq<nat>, readAt: seq<nat>,
                                 signalAt: nat, interrupted: bool, i: nat)
    requires Completed(platform, groups, base, target, calls, count, owner, readAt, signalAt, interrupted)
    requires i < |calls| && calls[i].GetParticipants?
    ensures exists k :: 0 <= k < |readAt| && readAt[k] == i && k !in platform.sigint
  {
    assert calls[..|calls| - 1][i] == calls[i];
    LookedAt(readAt, calls[..|calls| - 1], i);
    var k :| 0 <= k < |readAt| && readAt[k] == i;
    if interrupted {
      assert k < signalAt;
    }
  }

  /** The final disconnection of bot.py:318, after every group was paged
      through or after a stop, leaves a transcript with the turn's
      promised properties. */
  lemma EndTurn(platform: Platform, groups: seq<ChannelId>, g: nat, base: nat, target: ChannelId,
                offset: nat, count: nat, calls: seq<Call>, owner: seq<nat>, readAt: seq<nat>,
                signalAt: nat, interrupted: bool, released: bool)
    requires Turn(platform, groups, g, base, target, offset, count, calls, owner, readAt, signalAt, interrupted, released)
    requires g == |groups| || interrupted || count > InviteCap
    ensures offset == base + Fetched(calls + [Disconnect])
    ensures Completed(platform, groups, base, target, calls + [Disconnect], count, owner + [g], readAt, signalAt, interrupted)
  {
    AppendKeeps(calls, owner, groups, g, base, Disconnect);
    InvitedAppendOther(calls, target, Disconnect);
    AnsweredAppend(platform, calls, Disconnect);
    TotalsAppend(calls, Disconnect);
    assert (calls + [Disconnect])[..|calls|] == calls;
    if interrupted {
      StoppedAppend(platform, calls, readAt, signalAt);
    }
  }

  /** Before the first group nothing was sent and the flag was never read. */
  lemma StartTurn(platform: Platform, groups: seq<ChannelId>, base: nat, target: ChannelId)
    ensures Turn(platform, groups, 0, base, target, base, 0, [], [], [], 0, false, false)
  {
  }

  /** The loop over groups of bot.py:252-315, inside the handler's block:
      visits the groups in order until all are done or a visit asks to
      stop. */
  method VisitGroups(h: GracefulInterruptHandler, platform: Platform, groups: seq<ChannelId>,
                     target: ChannelId, offsetIn: nat, ghost bound: nat)
    returns (offset: nat, count: nat, calls: seq<Call>, ghost owner: seq<nat>,
             ghost readAt: seq<nat>, ghost signalAt: nat, g: nat)
    requires h.Valid() && !h.interrupted && !h.released && Finite(platform, bound)
    modifies h
    ensures h.Valid() && h.originalHandler == old(h.originalHandler)
    ensures g <= |groups| && (g == |groups| || h.interrupted || count > InviteCap)
    ensures Turn(platform, groups, g, offsetIn, target, offset, count, calls, owner, readAt, signalAt, h.interrupted, h.released)
  {
    offset, count, calls, owner, readAt, signalAt := offsetIn, 0, [], [], [], 0;
    StartTurn(platform, groups, offsetIn, target);
    var checks := 0;
    g := 0;
    while g < |groups|
      invariant g <= |groups|
      invariant h.Valid() && h.originalHandler == old(h.originalHandler) && checks == |readAt|
      invariant Turn(platform, groups, g, offsetIn, target, offset, count, calls, owner, readAt, signalAt, h.interrupted, h.released)
    {
      var stop;
      offset, count, calls, owner, checks, readAt, signalAt, stop :=
        VisitGroup(h, platform, groups, g, target, offsetIn, bound, offset, count, calls, owner, checks, readAt, signalAt);
      g := g + 1;
      if stop {
        return;
      }
    }
  }

  /** One account's turn, bot.py:239-318: select its supergroups, then,
      inside the interrupt handler's block, page through each group in turn
      from the module-level offset `offsetIn`. Before each group the flag
      and the cap are checked, and either one disconnects and ends the turn;
      the account is disconnected once more when the turn ends. */
  method RunClient(platform: Platform, dialogs: seq<Dialog>, target: ChannelId, offsetIn: nat,
                   installedIn: Disposition, ghost bound: nat)
    returns (offset: nat, count: nat, calls: seq<Call>, groups: seq<ChannelId>, interrupted: bool,
             installedOut: Disposition, ghost owner: seq<nat>, ghost readAt: seq<nat>, ghost signalAt: nat)
    requires Finite(platform, bound)
    ensures groups == DialogFilter.GroupIds(dialogs)
    ensures installedOut == installedIn
    ensures offset == offsetIn + Fetched(calls)
    ensures Completed(platform, groups, offsetIn, target, calls, count, owner, readAt, signalAt, interrupted)
  {
    groups := DialogFilter.SelectGroups(dialogs);
    var h := new GracefulInterruptHandler(installedIn);
    h.Enter();
    var g;
    offset, count, calls, owner, readAt, signalAt, g := VisitGroups(h, platform, groups, target, offsetIn, bound);
    EndTurn(platform, groups, g, offsetIn, target, offset, count, calls, owner, readAt, signalAt, h.interrupted, h.released);
    calls, owner := calls + [Disconnect], owner + [g];
    h.Exit();
    interrupted, installedOut := h.interrupted, h.installed;
  }
}

=== FILE: member_filter.dfy ===
/**
 Choosing whom to invite from one page of a channel's member list
 (bot.py:287-306): admins are skipped, every other participant claims the
 first user record with its id, that record is removed from the page's user
 list, and its id is kept unless the user is a bot or a deleted account.
 */
module MemberFilter {
  import opened Records

  /** Index of the first record in `users` whose id is `uid`, if any. */
  function FirstMatch(users: seq<User>, uid: UserId): (r: Option<nat>)
    ensures r.Some? ==> r.value < |users| && users[r.value].id == uid
  {
    if |users| == 0 then None
    else if users[0].id == uid then Some(0)
    else match FirstMatch(users[1..], uid)
      case None => None
      case Some(j) => Some(j + 1)
  }

  /** `FirstMatch` finds the first record with the id, and finds none
      exactly when no record has it. */
  lemma {:induction false} FirstMatchFirst(users: seq<User>, uid: UserId)
    ensures var r := FirstMatch(users, uid);
      && (r.Some? ==> forall k :: 0 <= k < r.value ==> users[k].id != uid)
      && (r.None? <==> forall k :: 0 <= k < |users| ==> users[k].id != uid)
    decreases |users|
  {
    if |users| > 0 && users[0].id != uid {
      FirstMatchFirst(users[1..], uid);
      assert forall k :: 1 <= k < |users| ==> users[k] == users[1..][k - 1];
    }
  }

  /** A matched user is invited unless it is a bot or a deleted account. */
  predicate Invitable(u: User) {
    !u.bot && !u.deleted
  }

  /** The ids chosen so far and the user records not yet claimed. */
  datatype Selection = Selection(ids: seq<UserId>, users: seq<User>)

  /** The ids of the invitable records of `users`, in order. */
  function InvitableIds(users: seq<User>): (r: seq<UserId>)
    ensures |r| <= |users|
  {
    if users == [] then []
    else (if Invitable(users[0]) then [users[0].id] else []) + InvitableIds(users[1..])
  }

  /** The user ids of the participants without admin rights, in order. */
  function NonAdminIds(ps: seq<Participant>): (r: seq<UserId>)
    ensures |r| <= |ps|
  {
    if ps == [] then []
    else
      var last := ps[|ps| - 1];
      NonAdminIds(ps[..|ps| - 1]) + (if last.hasAdminRights then [] else [last.userId])
  }

  /** Examining one participant against the records not yet claimed: it
      chooses no id, or the participant's own id when it is not an admin. */
  function Examine(p: Participant, users: seq<User>): (r: Selection)
    ensures r.ids == [] || (r.ids == [p.userId] && !p.hasAdminRights)
  {
    if p.hasAdminRights then Selection([], users)
    else match FirstMatch(users, p.userId)
      case None => Selection([], users)
      case Some(j) => Selection(if Invitable(users[j]) then [users[j].id] else [], users[..j] + users[j + 1..])
  }

  /** An admin, or a participant no record matches, leaves the records as
      they are; any other participant removes exactly the first record with
      its id, and chooses that id exactly when the record is invitable. */
  lemma ExamineEffect(p: Participant, users: seq<User>)
    ensures var r := Examine(p, users);
      p.hasAdminRights || FirstMatch(users, p.userId).None? ==> r == Selection([], users)
    ensures var r := Examine(p, users);
      !p.hasAdminRights && FirstMatch(users, p.userId).Some? ==>
      var j := FirstMatch(users, p.userId).value;
      && users == users[..j] + [users[j]] + users[j + 1..]
      && r.users == users[..j] + users[j + 1..]
      && multiset(r.users) + multiset{users[j]} == multiset(users)
      && (r.ids != [] <==> Invitable(users[j]))
  {
    var m := FirstMatch(users, p.userId);
    if !p.hasAdminRights && m.Some? {
      var j := m.value;
      assert users == users[..j] + [users[j]] + users[j + 1..];
    }
  }

  /** The whole filter: the participants examined in order, each one against
      the records left by those before it. */
  function Select(ps: seq<Participant>, users: seq<User>): (r: Selection)
    decreases |ps|
  {
    if ps == [] then Selection([], users)
    else
      var prev := Select(ps[..|ps| - 1], users);
      var step := Examine(ps[|ps| - 1], prev.users);
      Selection(prev.ids + step.ids, step.users)
  }

  lemma InvitableIdsAppend(a: seq<User>, b: seq<User>)
    ensures InvitableIds(a + b) == InvitableIds(a) + InvitableIds(b)
    decreases |a|
  {
    if a == [] {
      assert a + b == b;
    } else {
      var head := if Invitable(a[0]) then [a[0].id] else [];
      assert (a + b)[0] == a[0];
      assert (a + b)[1..] == a[1..] + b;
      InvitableIdsAppend(a[1..], b);
      calc {
        InvitableIds(a + b);
        head + InvitableIds(a[1..] + b);
        head + (InvitableIds(a[1..]) + InvitableIds(b));
        (head + InvitableIds(a[1..])) + InvitableIds(b);
      }
    }
  }

  /** Examining one participant moves at most one invitable id from the
      unclaimed records to the chosen ids, and never creates one. */
  lemma ExamineConserves(p: Participant, users: seq<User>)
    ensures var r := Examine(p, users);
      multiset(r.ids) + multiset(InvitableIds(r.users)) == multiset(InvitableIds(users))
  {
    var r := Examine(p, users);
    var m := FirstMatch(users, p.userId);
    ExamineEffect(p, users);
    if !p.hasAdminRights && m.Some? {
      var j := m.value;
      assert users == users[..j] + ([users[j]] + users[j + 1..]);
      InvitableIdsAppend(users[..j], [users[j]] + users[j + 1..]);
      InvitableIdsAppend([users[j]], users[j + 1..]);
      InvitableIdsAppend(users[..j], users[j + 1..]);
      assert InvitableIds([users[j]]) == r.ids;
    }
  }

  /** Order: filtering a page in two parts, the second part against the
      records the first part left, gives the ids of the whole page in order. */
  lemma {:induction false} SelectAppend(ps1: seq<Participant>, ps2: seq<Participant>, users: seq<User>)
    ensures var first := Select(ps1, users);
            var second := Select(ps2, first.users);
            Select(ps1 + ps2, users) == Selection(first.ids + second.ids, second.users)
    decreases |ps2|
  {
    var first := Select(ps1, users);
    if ps2 == [] {
      assert ps1 + ps2 == ps1;
    } else {
      var init := ps2[..|ps2| - 1];
      SelectAppend(ps1, init, users);
      assert (ps1 + ps2)[..|ps1 + ps2| - 1] == ps1 + init;
      assert (ps1 + ps2)[|ps1 + ps2| - 1] == ps2[|ps2| - 1];
    }
  }

  /** Every chosen id was an invitable record of the page, and a record is
      claimed at most once: an id is chosen no more often than there are
      invitable records carrying it. The records left are those of the page
      less the ones claimed. */
  lemma {:induction false} SelectConserves(ps: seq<Participant>, users: seq<User>)
    ensures var r := Select(ps, users);
      && multiset(r.ids) + multiset(InvitableIds(r.users)) == multiset(InvitableIds(users))
      && multiset(r.ids) <= multiset(InvitableIds(users))
      && multiset(r.users) <= multiset(users)
    decreases |ps|
  {
    if ps != [] {
      var prev := Select(ps[..|ps| - 1], users);
      var step := Examine(ps[|ps| - 1], prev.users);
      SelectConserves(ps[..|ps| - 1], users);
      ExamineConserves(ps[|ps| - 1], prev.users);
      ExamineEffect(ps[|ps| - 1], prev.users);
      assert multiset(prev.ids + step.ids) == multiset(prev.ids) + multiset(step.ids);
      assert multiset(step.users) <= multiset(prev.users);
    }
  }

  /** Every chosen id belongs to a participant without admin rights, at most
      once per participant; so there are never more ids than such participants,
      and never more records claimed than such participants. */
  lemma {:induction false} SelectFromNonAdmins(ps: seq<Participant>, users: seq<User>)
    ensures var r := Select(ps, users);
      && multiset(r.ids) <= multiset(NonAdminIds(ps))
      && |r.ids| <= |NonAdminIds(ps)|
      && |users| - |NonAdminIds(ps)| <= |r.users| <= |users|
    decreases |ps|
  {
    if ps != [] {
      var init, last := ps[..|ps| - 1], ps[|ps| - 1];
      var prev := Select(init, users);
      var step := Examine(last, prev.users);
      SelectFromNonAdmins(init, users);
      ExamineEffect(last, prev.users);
      var r := Select(ps, users);
      assert r == Selection(prev.ids + step.ids, step.users);
      assert NonAdminIds(ps) == NonAdminIds(init) + (if last.hasAdminRights then [] else [last.userId]);
      assert |prev.users| - 1 <= |step.users| <= |prev.users|;
      assert multiset(r.ids) == multiset(prev.ids) + multiset(step.ids);
      assert |r.ids| == |multiset(r.ids)|;
      assert |NonAdminIds(ps)| == |multiset(NonAdminIds(ps))|;
    }
  }

  lemma {:induction false} InvitableIdsMember(users: seq<User>, x: UserId)
    requires x in InvitableIds(users)
    ensures exists k :: 0 <= k < |users| && users[k].id == x && Invitable(users[k])
    decreases |users|
  {
    if !(Invitable(users[0]) && users[0].id == x) {
      InvitableIdsMember(users[1..], x);
      var k :| 0 <= k < |users[1..]| && users[1..][k].id == x && Invitable(users[1..][k]);
      assert users[k + 1] == users[1..][k];
    }
  }

  lemma {:induction false} NonAdminIdsMember(ps: seq<Participant>, x: UserId)
    requires x in NonAdminIds(ps)
    ensures exists i :: 0 <= i < |ps| && !ps[i].hasAdminRights && ps[i].userId == x
    decreases |ps|
  {
    var init, last := ps[..|ps| - 1], ps[|ps| - 1];
    if !(!last.hasAdminRights && last.userId == x) {
      NonAdminIdsMember(init, x);
      var i :| 0 <= i < |init| && !init[i].hasAdminRights && init[i].userId == x;
      assert ps[i] == init[i];
    }
  }

  /** Every chosen id belongs to a participant without admin rights and to a
      user record of the page that is neither a bot nor deleted. */
  lemma SelectedAreEligible(ps: seq<Participant>, users: seq<User>, x: UserId)
    requires x in Select(ps, users).ids
    ensures exists i :: 0 <= i < |ps| && !ps[i].hasAdminRights && ps[i].userId == x
    ensures exists k :: 0 <= k < |users| && users[k].id == x && Invitable(users[k])
  {
    var r := Select(ps, users);
    SelectConserves(ps, users);
    SelectFromNonAdmins(ps, users);
    assert x in multiset(r.ids);
    assert x in multiset(NonAdminIds(ps));
    NonAdminIdsMember(ps, x);
    assert x in multiset(InvitableIds(users));
    InvitableIdsMember(users, x);
  }

  /** Admins do not take part: dropping them first changes nothing. */
  lemma {:induction false} AdminsIgnored(ps: seq<Participant>, users: seq<User>)
    ensures Select(ps, users) == Select(NonAdmins(ps), users)
    decreases |ps|
  {
    if ps != [] {
      var init, last := ps[..|ps| - 1], ps[|ps| - 1];
      AdminsIgnored(init, users);
      var prev := Select(init, users);
      if last.hasAdminRights {
        assert NonAdmins(ps) == NonAdmins(init);
        assert Examine(last, prev.users) == Selection([], prev.users);
        assert prev.ids + [] == prev.ids;
      } else {
        var q := NonAdmins(init) + [last];
        assert NonAdmins(ps) == q;
        assert q[..|q| - 1] == NonAdmins(init) && q[|q| - 1] == last;
      }
    }
  }

  /** The participants without admin rights, in order. */
  function NonAdmins(ps: seq<Participant>): (r: seq<Participant>)
    ensures forall i :: 0 <= i < |r| ==> !r[i].hasAdminRights
    ensures |r| <= |ps|
  {
    if ps == [] then []
    else
      var last := ps[|ps| - 1];
      NonAdmins(ps[..|ps| - 1]) + (if last.hasAdminRights then [] else [last])
  }

  /** The loop of bot.py:287-306 over one page: `users` is the page's user
      list, from which each claimed record is removed before the bot and
      deleted checks. */
  method CollectInvitees(page: Page) returns (ids: seq<UserId>, users: seq<User>)
    ensures Selection(ids, users) == Select(page.participants, page.users)
  {
    var ps := page.participants;
    ids, users := [], page.users;
    for i := 0 to |ps|
      invariant Selection(ids, users) == Select(ps[..i], page.users)
    {
      var participant := ps[i];
      assert ps[..i + 1][..i] == ps[..i];
      if participant.hasAdminRights {
        continue;
      }
      ids, users := Claim(participant, ids, users);
    }
    assert ps[..|ps|] == ps;
  }

  /** The inner loop of bot.py:294-306 for a participant without admin
      rights: the first record with its id is removed from `users0`, and its
      id appended to `ids0` unless the user is a bot or a deleted account. */
  method Claim(participant: Participant, ids0: seq<UserId>, users0: seq<User>)
    returns (ids: seq<UserId>, users: seq<User>)
    requires !participant.hasAdminRights
    ensures ids == ids0 + Examine(participant, users0).ids
    ensures users == Examine(participant, users0).users
  {
    FirstMatchFirst(users0, participant.userId);
    ids, users := ids0, users0;
    var j := 0;
    while j < |users|
      invariant 0 <= j <= |users|
      invariant users == users0 && ids == ids0
      invariant forall k :: 0 <= k < j ==> users[k].id != participant.userId
    {
      var user := users[j];
      if user.id == participant.userId {
        users := users[..j] + users[j + 1..];
        if user.bot {
          return;
        }
        if user.deleted {
          return;
        }
        ids := ids + [user.id];
        return;
      }
      j := j + 1;
    }
    assert ids0 + [] == ids0;
  }
}

=== FILE: records.dfy ===
/**
 The records the inviter receives from the messaging platform, reduced to the
 fields its logic reads (bot.py:242-249 and bot.py:287-304).
 */
module Records {

  type UserId = int
  type ChannelId = int

  datatype Option<T> = None | Some(value: T)

  /** One entry of a channel's member list. `hasAdminRights` stands for the
      presence of an `admin_rights` attribute on the participant object. */
  datatype Participant = Participant(userId: UserId, hasAdminRights: bool)

  /** A user record shipped with a page of participants. */
  datatype User = User(id: UserId, bot: bool, deleted: bool)

  /** One answer to a participants request: the participants and the user
      records that describe them (in no promised order). */
  datatype Page = Page(participants: seq<Participant>, users: seq<User>)

  /** One open conversation of the account. */
  datatype Dialog = Dialog(id: ChannelId, isUser: bool, isChannel: bool, isGroup: bool)
}

=== FILE: sessions.dfy ===
/**
 The outer loop of bot.py:229-318 over the configured accounts. Each
 account is either skipped at the operator's answer or given its turn; the
 module-level offset (bot.py:80) starts at zero once and is carried, never
 reset, from one turn into the next.
 */
module Sessions {
  import opened Transcript
  import opened Inviter
  import opened Interrupts
  import opened Records
  import DialogFilter

  /** One configured account: whether the operator answered anything but
      'n' to using it, its dialogs, and the platform as it sees it. */
  datatype Session = Session(useIt: bool, dialogs: seq<Dialog>, platform: Platform)

  /** Participants received over all the transcripts, in order. */
  function FetchedAll(transcripts: seq<seq<Call>>): nat {
    if transcripts == [] then 0
    else FetchedAll(transcripts[..|transcripts| - 1]) + Fetched(transcripts[|transcripts| - 1])
  }

  /** A later turn starts from an offset no smaller than an earlier turn's:
      the offset never goes back from one account to the next. */
  lemma {:induction false} FetchedAllMonotone(transcripts: seq<seq<Call>>, c: nat, d: nat)
    requires c <= d <= |transcripts|
    ensures FetchedAll(transcripts[..c]) <= FetchedAll(transcripts[..d])
    decreases d - c
  {
    if c < d {
      FetchedAllMonotone(transcripts, c, d - 1);
      assert transcripts[..d][..d - 1] == transcripts[..d - 1];
    }
  }

  /** Within one transcript the offsets asked for never go back. */
  lemma OffsetsNonDecreasing(calls: seq<Call>, base: nat, i: nat, j: nat)
    requires Paging(calls, base) && i <= j < |calls|
    requires calls[i].GetParticipants? && calls[j].GetParticipants?
    ensures calls[i].offset <= calls[j].offset
  {
    PagingAt(calls, base, i);
    PagingAt(calls, base, j);
    TotalsMonotone(calls[..j], i);
    assert calls[..j][..i] == calls[..i];
  }

  /** What one account's turn left behind, when its requests started from
      offset `base`: nothing at all for a skipped account; otherwise what
      `Completed` promises of a turn over the supergroups among the
      account's own dialogs, against the account's own platform. */
  ghost predicate Recorded(session: Session, calls: seq<Call>, count: nat, base: nat, target: ChannelId,
                           owner: seq<nat>, readAt: seq<nat>, signalAt: nat, interrupted: bool)
  {
    && (!session.useIt ==> calls == [] && count == 0)
    && (session.useIt ==>
          Completed(session.platform, DialogFilter.GroupIds(session.dialogs), base, target,
                    calls, count, owner, readAt, signalAt, interrupted))
  }

  /** The loop of bot.py:229-318 over the accounts, from the starting
      offset; `installedIn` is the signal disposition when it starts. Each
      turn starts where the previous turns' pages left the offset. The
      ghost outputs give, per account, the group of each call, the looks
      at the flag, the look that found Ctrl+C and whether one was caught. */
  method RunSessions(sessions: seq<Session>, target: ChannelId, installedIn: Disposition, ghost bound: nat)
    returns (offset: nat, transcripts: seq<seq<Call>>, counts: seq<nat>, installedOut: Disposition,
             ghost owners: seq<seq<nat>>, ghost looks: seq<seq<nat>>, ghost signals: seq<nat>,
             ghost interrupts: seq<bool>)
    requires forall c :: 0 <= c < |sessions| ==> Finite(sessions[c].platform, bound)
    ensures |transcripts| == |sessions| && |counts| == |sessions|
    ensures |owners| == |sessions| && |looks| == |sessions| && |signals| == |sessions| && |interrupts| == |sessions|
    ensures offset == InitialOffset + FetchedAll(transcripts)
    ensures forall c :: 0 <= c < |sessions| ==>
      Recorded(sessions[c], transcripts[c], counts[c], InitialOffset + FetchedAll(transcripts[..c]), target,
               owners[c], looks[c], signals[c], interrupts[c])
    ensures installedOut == installedIn
  {
    offset, transcripts, counts, installedOut := InitialOffset, [], [], installedIn;
    owners, looks, signals, interrupts := [], [], [], [];
    for c := 0 to |sessions|
      invariant |transcripts| == c && |counts| == c
      invariant |owners| == c && |looks| == c && |signals| == c && |interrupts| == c
      invariant offset == InitialOffset + FetchedAll(transcripts)
      invariant forall k :: 0 <= k < c ==>
        Recorded(sessions[k], transcripts[k], counts[k], InitialOffset + FetchedAll(transcripts[..k]), target,
                 owners[k], looks[k], signals[k], interrupts[k])
      invariant installedOut == installedIn
    {
      var calls, count, interrupted;
      ghost var owner, readAt, signalAt;
      offset, calls, count, installedOut, owner, readAt, signalAt, interrupted :=
        RunSession(sessions[c], target, offset, installedOut, bound);
      ghost var before := transcripts;
      transcripts, counts := transcripts + [calls], counts + [count];
      owners, looks, signals, interrupts := owners + [owner], looks + [readAt], signals + [signalAt], interrupts + [interrupted];
      assert transcripts[..c] == before;
      forall k | 0 <= k < c
        ensures transcripts[..k] == before[..k]
      {
      }
    }
  }

  /** One pass of the loop of bot.py:229-318: a skipped account sends
      nothing; otherwise the account's turn runs from offset `offsetIn`,
      and the offset moves on by the participants its pages held. */
  method RunSession(session: Session, target: ChannelId, offsetIn: nat, installedIn: Disposition, ghost bound: nat)
    returns (offset: nat, calls: seq<Call>, count: nat, installedOut: Disposition,
             ghost owner: seq<nat>, ghost readAt: seq<nat>, ghost signalAt: nat, interrupted: bool)
    requires Finite(session.platform, bound)
    ensures Recorded(session, calls, count, offsetIn, target, owner, readAt, signalAt, interrupted)
    ensures offset == offsetIn + Fetched(calls) && installedOut == installedIn
  {
    offset, calls, count, installedOut := offsetIn, [], 0, installedIn;
    owner, readAt, signalAt, interrupted := [], [], 0, false;
    if session.useIt {
      var groups;
      offset, count, calls, groups, interrupted, installedOut, owner, readAt, signalAt :=
        RunClient(session.platform, session.dialogs, target, offsetIn, installedIn, bound);
    }
  }
}

=== FILE: transcript.dfy ===
/**
 The calls one client makes to the platform during the invitation loop
 (bot.py:251-318), each with the answer it got, and the running totals the
 loop keeps over them.
 */
module Transcript {
  import opened Records

  datatype Call =
      /** `GetParticipantsRequest(channel, search '', offset, limit)` and the page it returned. */
    | GetParticipants(channel: ChannelId, offset: nat, limit: nat, page: Page)
      /** `InviteToChannelRequest(channel, ids)` and the users listed in its answer. */
    | InviteToChannel(channel: ChannelId, ids: seq<UserId>, invited: seq<User>)
    | Disconnect

  function PageSize(c: Call): nat {
    if c.GetParticipants? then |c.page.participants| else 0
  }

  function InvitedSize(c: Call): nat {
    if c.InviteToChannel? then |c.invited| else 0
  }

  /** A participants request answered with no participants. */
  predicate IsEmptyPage(c: Call) {
    c.GetParticipants? && c.page.participants == []
  }

  /** Participants received over all pages of `calls`. */
  function Fetched(calls: seq<Call>): nat {
    if calls == [] then 0 else Fetched(calls[..|calls| - 1]) + PageSize(calls[|calls| - 1])
  }

  /** Users reported invited over all answers in `calls`. */
  function Invited(calls: seq<Call>): nat {
    if calls == [] then 0 else Invited(calls[..|calls| - 1]) + InvitedSize(calls[|calls| - 1])
  }

  /** Number of empty pages in `calls`. */
  function EmptyPages(calls: seq<Call>): nat {
    if calls == [] then 0 else EmptyPages(calls[..|calls| - 1]) + (if IsEmptyPage(calls[|calls| - 1]) then 1 else 0)
  }

  /** The running totals over a transcript extended by one call grow by
      that call's share and by nothing else. */
  lemma TotalsAppend(calls: seq<Call>, c: Call)
    ensures Fetched(calls + [c]) == Fetched(calls) + PageSize(c)
    ensures Invited(calls + [c]) == Invited(calls) + InvitedSize(c)
    ensures EmptyPages(calls + [c]) == EmptyPages(calls) + (if IsEmptyPage(c) then 1 else 0)
  {
    assert (calls + [c])[..|calls|] == calls;
  }

  /** The totals over a prefix never exceed those over the whole. */
  lemma {:induction false} TotalsMonotone(calls: seq<Call>, i: nat)
    requires i <= |calls|
    ensures Fetched(calls[..i]) <= Fetched(calls)
    ensures Invited(calls[..i]) <= Invited(calls)
    ensures EmptyPages(calls[..i]) <= EmptyPages(calls)
    decreases |calls| - i
  {
    if i < |calls| {
      TotalsMonotone(calls, i + 1);
      assert calls[..i + 1][..i] == calls[..i];
    } else {
      assert calls[..i] == calls;
    }
  }
}
